=== FILE: README.md ===
# jenkins-cli in Dafny

A Dafny model of the decision logic of `jenkins-cli`, a command-line client for a
Jenkins server. The model covers five parts:

- **Configuration gate** (`Config`): where the credentials and workspace files live, and
  the check that every load passes through. Username, token and base API must each
  hold a non-space character.
- **API layer** (`JenkinsApi`, `Pipeline`):
  - The crumb check and the status/Location handling of the parameterised build POST.
  - The build-number lookup of a queue item.
  - The progressive-log query string and header defaults.
  - The status classification of stop and cancel.
  - The stage aggregation of the pipeline runs list: flattened, then deduplicated by
    stage id, with the first occurrence winning.
- **Interactive build command** (`RootCommand`):
  - The view, job, choice and branch prompts and the guards that stop an incomplete
    selection from submitting.
  - The clamped pause.
  - The bounded lookup of the build number: at most 8 lookups, 3 seconds apart.
  - The final status fetch.
- **`stages` command** (`StagesCommand`): the status banner, then a walk over the
  pipeline's stages. For each stage it polls the live run description until that stage,
  or the whole run, has succeeded.
- **`log` command** (`LogCommand`): chunk-by-chunk retrieval of the console log, and the
  colouring of each printed line by the first severity word it contains.

How the model is built:

- **Server replies are inputs.** Every reply from the server is a parameter of type
  `Result<T>`. A loop that calls the server repeatedly reads its k-th reply from a
  function `nat -> Result<T>`.
- **Requests are recorded, not performed.** The requests a command would send, and the
  pauses it would make, are collected as a trace (`seq<Effect>`). Properties such as "at
  most one build POST, and only after a complete selection" are counted over that
  trace.
- **Unbounded loops take a bound.** The two loops the source leaves unbounded are the
  stage polling and the log's `for moreDate`. Each takes an explicit `budget` or `fuel`.
  A result of `None`, or `finished == false`, means the bound ran out.
- **Go library behaviour is written out.** `GoStrings` models the standard-library
  behaviour the core relies on:
  - `strings.TrimSpace` with `unicode.IsSpace`, `strings.Contains`, and splitting on
    `"\n"`;
  - `strconv.Itoa`, `strconv.ParseInt(s, 10, 64)` and `strconv.ParseBool`;
  - `path.Base`;
  - Go's truncating integer division.

Quirks of the code that the model keeps:

- A 201 reply with no Location header yields the queue id `"."`, because `path.Base("")`
  is `"."`.
- The build command fetches the build status even when no build number was found. It
  then asks for build `""`.
- In the `log` command, "Log output is completed!" is printed only when the first chunk
  is complete. After following several chunks, it is not printed.
- The first log request is followed up only when the server reported a text size.
  Later follow-ups may ask from offset `-1`.
- The stage polling loop discards describe errors. It treats an error as Go's zero
  description.
- The stage polling loop leaves a stage only on a SUCCESS of the run or of that stage.
  It never leaves while the run reports FAILURE, ABORTED or IN_PROGRESS, unless that
  describe lists the stage itself as SUCCESS, or while the describe call fails.
  `StagesCommand.UnsuccessfulRunIsWatchedForever` proves that when neither ever shows
  SUCCESS, no budget is enough.

## Model

| member | source | states |
|---|---|---|
| Config.ConfigFilePath | util/config.go:12-14 | the credentials file is `<home>/.config/jenkins-cli/jenkins-cli.yaml` for every home directory |
| Config.WorkspaceFilePath | util/config.go:16-18 | the workspace file is `<home>/.config/jenkins-cli/workspace.yaml` |
| Config.ConfigAndWorkspaceDiffer | config/global_constan.go:3-7 | for every home the two files are distinct yet share the directory `<home>/.config/jenkins-cli/` |
| Config.MissingFields | util/config.go:71-82 | a field is reported exactly when its value is blank (only Unicode white space), and reports come in the order username, token, base_api |
| Config.MissingAmongKeepsOrder | util/config.go:73-81 | filtering the checked fields keeps their checking order |
| Config.ValidateJenkinsConfig | util/config.go:70-87 | validation passes iff all three credentials contain a non-space character; a failure carries one message that lists every blank field, joined by ", " |
| Config.MissingCount | util/config.go:73-83 | one message per blank field, no more and no fewer |
| Config.WhitespaceCountsAsMissing | util/config.go:73-84 | a username of spaces and tabs and an ideographic-space base API are reported exactly as empty ones, in the fixed order |
| Config.GetConfigFile | util/config.go:20-45 | a configuration is returned iff the file exists, reads, parses and validates, and it is the parsed one unchanged; a missing file names the expected path; a validation failure carries the validation message |
| Config.LoadedConfigIsValid | util/config.go:39-44 | every configuration that loads has all three credentials non-blank after TrimSpace |
| Pipeline.GetPipelineConfig | api/jenkins_api.go:296-323 | the nested loops with their linear id test compute exactly the id-deduplicated flattening of the runs; a request error is passed through |
| Pipeline.DedupIds | api/jenkins_api.go:305-317 | the ids kept are exactly the ids seen |
| Pipeline.DedupIsFirstOccurrences | api/jenkins_api.go:305-318 | the loop's skip-if-already-kept rule selects exactly the first occurrence of each id on every prefix, matching an independent first-index definition |
| Pipeline.AggregateStagesSpec | api/jenkins_api.go:302-320 | the aggregated stages have pairwise distinct ids; each is the first stage of the flattened runs carrying its id; every id of every run is kept; order is order of first appearance |
| Pipeline.SharedIdKeepsFirstRun | api/jenkins_api.go:306-317 | two runs that share a stage id yield a single entry carrying the first run's attributes |
| JenkinsApi.BuildWithParameters | api/jenkins_api.go:117-164 | a crumb is always fetched first; the form (tag = branch, pro = choices) is posted iff the crumb has both fields and the configuration loads; the result is a queue id iff the form was posted and the reply is 201 with a parseable Location, and the id is that path's last element; other codes are rejected with the code |
| JenkinsApi.SubmissionExample | api/jenkins_api.go:153-160 | a 201 whose Location path is `/queue/item/42/` yields queue id `42` |
| JenkinsApi.QueueIdIsOneSegment | api/jenkins_api.go:159-160 | an accepted submission's queue id is non-empty and contains no slash (or is the root `/`) |
| JenkinsApi.GetBuildNumber | api/jenkins_api.go:166-172 | a lookup error passes through; the number is "" exactly when the queue item has no executable yet |
| JenkinsApi.BuildNumberReadsBack | api/jenkins_api.go:171 | the build number text parses back to the executable number the server sent |
| JenkinsApi.LogPath | api/jenkins_api.go:266-269 | the request path is the progressive-text path with no query iff no start offset is given; with one it carries `?start=` followed by text that parses back to the offset |
| JenkinsApi.MoreDataHeader | api/jenkins_api.go:278-285 | X-More-Data reads true exactly for the six spellings ParseBool accepts as true; absent or malformed reads false |
| JenkinsApi.TextSizeHeader | api/jenkins_api.go:279-291 | X-Text-Size reads as its 64-bit decimal value when it parses and -1 otherwise |
| JenkinsApi.TextSizeRoundTrip | api/jenkins_api.go:286-291 | a text size the server renders in decimal is read back unchanged |
| JenkinsApi.GetTextLog | api/jenkins_api.go:265-294 | a request error passes through; the chunk text is the body; more-data is true exactly for Go's six true spellings of X-More-Data; a parseable X-Text-Size is the chunk's size; a missing or unparseable header gives more-data false and text size -1 |
| JenkinsApi.Stop | api/jenkins_api.go:352-378 | no request without a configuration; the stop POST succeeds iff the reply is 200 or 302, and any other code is rejected with that code |
| JenkinsApi.CancelItem | api/jenkins_api.go:380-393 | an empty queue id is refused before any request; otherwise the cancel succeeds iff the reply is 200 or 302, and any other code is rejected with that code |
| RootCommand.StrUISelect | util/ui_select_util.go:47-79 | an empty list or a failed prompt gives ""; a pick gives the item at that index; a non-empty answer is always one of the items |
| RootCommand.SelectView | cmd/root.go:84-91 | picking index i selects the name of the workspace's i-th view; a cancelled prompt or an empty workspace selects nothing; a selected view is always the name of some view |
| RootCommand.SelectJob | cmd/root.go:93-104 | picking index i selects the i-th job offered for the chosen view; a cancelled prompt selects nothing; a selected job is always one of the offered jobs |
| RootCommand.JobsOfViewFirstMatch | cmd/root.go:95-101 | the jobs offered are those of the first view with the chosen name |
| RootCommand.JobsOfViewNoMatch | cmd/root.go:95-103 | when no view has the chosen name, no job is offered |
| RootCommand.WaitOperation | cmd/root.go:113-121 | the pause is never negative and never shorter than asked; it is the duration asked for, or zero |
| RootCommand.GetBuildNumberPoll | cmd/root.go:123-138 | a non-positive size makes no lookup; otherwise between 1 and size lookups are made |
| RootCommand.PollWaitsOnlyOnEmpty | cmd/root.go:127-137 | the wait repeats only on a reply saying the queue item has no executable yet |
| RootCommand.PollLastReplyDecides | cmd/root.go:124-134 | stopping before the bound happens only on an error or a number, and the number returned is the last reply's ("" on error) |
| RootCommand.PollTrace | cmd/root.go:123-138 | the lookups alternate with 3-second pauses, with a pause after the last lookup only when that one came back empty too |
| RootCommand.PollSendsNoPost | cmd/root.go:123-138 | waiting for the build number never fetches a crumb and never submits a build |
| RootCommand.Run | cmd/root.go:20-81 | a workspace error ends the command with no request; an incomplete selection sends no crumb request and no build, and its trace is nothing before a job is chosen and only the parameter request after; a failed submission ends with the parameter request and the submission's own trace, with no pause, lookup or status request; the status is fetched iff the selection is complete and the submission returned a queue id; the change sets reported are the build status's; after an accepted submission the trace is the parameter request, the submission's own trace, then exactly AfterSubmission's 4 s pause, 8-try lookup and status request, and the outcome is AfterSubmission's |
| RootCommand.AfterSubmission | cmd/root.go:62-73 | after a submission the command pauses 4 seconds, then makes the lookups of an 8-try build-number wait, and always ends with a status fetch for the build number that wait found; that number is the one reported; the change sets are reported iff the fetch succeeds, with the submitted queue id |
| RootCommand.SubmissionNeedsCompleteSelection | cmd/root.go:27-53 | a crumb is fetched exactly once iff view, job, parameter lists and branch were all obtained; the build is posted at most once, exactly when additionally the crumb is usable and the configuration loads, and it carries the selected job, branch and choice |
| RootCommand.StillQueuedStillFetchesStatus | cmd/root.go:62-73 | a build still queued after 8 lookups does not abort the command: the last request is the status of build "" and its reply is reported |
| StagesCommand.DescribeOrZero | cmd/stages.go:61 | a failed describe in the loop is seen as a run with empty status and no stages |
| StagesCommand.FirstSucceeded | cmd/stages.go:70-77 | a stage is found iff the live description lists that id with status SUCCESS, and what is found is such an entry |
| StagesCommand.PollStage | cmd/stages.go:58-78 | once the run is known to have succeeded no call is made; the stage is ticked because the run succeeded at the last call, or because the stage is listed as SUCCESS (and the run is not) at the call recorded, with its duration in whole seconds truncated |
| StagesCommand.PollStageWaitsForEvidence | cmd/stages.go:59-78 | every describe before the one that ends the wait showed neither a successful run nor a successful stage |
| StagesCommand.PollStageNoneMeansNoEvidence | cmd/stages.go:59-78 | a wait that runs out of budget started with the run not known to have succeeded, and no describe call within the budget showed a successful run or the stage as SUCCESS |
| StagesCommand.PollStageBudgetMonotone | cmd/stages.go:59-78 | a wait that finished within a budget finishes identically within any larger one |
| StagesCommand.PollAll | cmd/stages.go:52-79 | a finished walk ticks every stage exactly once, in the pipeline's order, under its own name and position |
| StagesCommand.CompleteIsSticky | cmd/stages.go:60-68 | once the run has succeeded every remaining stage is ticked at once, without another call |
| StagesCommand.StageConfirmationsAreSound | cmd/stages.go:70-76 | a stage ticked from the live description was listed there under its own id with status SUCCESS at the recorded call |
| StagesCommand.PollAllNoneMeansBudgetRanOut | cmd/stages.go:53-79 | a walk that gives up reached some stage with every stage before it ticked off, and the wait for that stage, from the state they left, ran out of budget |
| StagesCommand.PollAllBudgetMonotone | cmd/stages.go:52-79 | a walk that finished within a budget is unchanged by a larger one |
| StagesCommand.UnsuccessfulRunIsWatchedForever | cmd/stages.go:59-78 | when no describe reports the run as SUCCESS (failed, aborted, in progress or a failed call) and none lists the stage as succeeded, the wait for that stage never ends, whatever the budget |
| StagesCommand.PollStageKeepsBacking | cmd/stages.go:60-64 | waiting for one stage keeps the `complate` flag backed: once set, some describe made so far reported the run as SUCCESS |
| StagesCommand.RunConfirmationsAreSound | cmd/stages.go:60-67 | a stage ticked because the run succeeded, including one ticked from the carried `complate` flag, is backed by a describe call of the walk that reported the whole run as SUCCESS |
| StagesCommand.StatusBanner | cmd/stages.go:36-47 | each of SUCCESS, FAILURE, ABORTED, IN_PROGRESS gets its own banner, and only that status gets it |
| StagesCommand.PipelineStages | cmd/stages.go:50 | a failed pipeline request is discarded and no stage is walked; otherwise the stages walked have pairwise distinct ids and include every stage id of every run |
| StagesCommand.StagesRun | cmd/stages.go:19-80 | fewer than two arguments gives the usage hint; a failed first describe is reported; a FAILURE or ABORTED build ends after its banner; the banner is StatusBanner of the first describe's status; otherwise the aggregated stages are walked from a fresh state by PollAll, and a finished walk ticks each |
| StagesCommand.SucceededRunNeedsOneCall | cmd/stages.go:60-68 | a run reported successful at the first call ticks every stage after that single call |
| LogCommand.ColourPrecedence | cmd/log.go:57-66 | a line is red iff it mentions ERROR but neither INFO nor WARN, yellow iff it mentions WARN but not INFO, and white otherwise |
| LogCommand.PrintLogLine | cmd/log.go:54-72 | an empty chunk prints nothing; otherwise one line per newline-separated piece, none containing a newline, each coloured by the first severity word it contains (INFO, then WARN, then ERROR) |
| LogCommand.PrintedTextRoundTrip | cmd/log.go:55-68 | the printed lines joined by newlines give back the chunk |
| LogCommand.Follow | cmd/log.go:38-45 | the follow loop asks first from the given offset, records one event per request, and makes as many requests as the fuel allows when it does not finish |
| LogCommand.LogRunOf | cmd/log.go:16-47 | fewer than two arguments gives the usage hint; the first request has no offset; a first error is reported; a complete first chunk is shown and followed by the completion message; otherwise the first chunk is shown and followed up |
| LogCommand.FollowStartsChain | cmd/log.go:38-39 | each follow-up request starts at the text size of the previous reply |
| LogCommand.FollowEventsInOrder | cmd/log.go:38-45 | each follow-up request shows its own chunk or reports its own error, in request order |
| LogCommand.FollowContinuesUntilLast | cmd/log.go:38-43 | every follow-up reply before the last reported more data |
| LogCommand.FollowStopsAtEnd | cmd/log.go:38-43 | a finished follow loop stopped at an error or at a reply without more data |
| LogCommand.LogRequestsCharacterised | cmd/log.go:26-45 | every request after the first starts at the previous reply's text size; every reply but the last asked for more; a finished command stopped at the first reply that does not; an unfinished one used all its fuel |
| LogCommand.FollowedLogShowsEveryChunk | cmd/log.go:36-45 | a followed log shows every reply in request order and never prints the completion message |
| LogCommand.FinishedBuildNeedsOneRequest | cmd/log.go:26-35 | a reply without X-More-Data ends the command after one request: the body is printed line by line, then the completion message |
| GoStrings.ContainsIffOccurs | cmd/log.go:58 | substring search agrees with the positional definition of an occurrence |
| GoStrings.TrimSpaceEmptyIffBlank | util/config.go:73 | a string trims to "" exactly when it consists of white space only |
| GoStrings.SplitLinesProperties | cmd/log.go:56 | splitting on newline loses nothing (the pieces rejoin to the input), gives one piece more than there are newlines, and no piece holds a newline |
| GoStrings.ItoaParseRoundTrip | api/jenkins_api.go:268 | every 64-bit integer rendered in decimal parses back to itself |
| GoStrings.ParseBool | api/jenkins_api.go:281 | true and false are recognised in exactly Go's six spellings each; anything else is an error |
| GoStrings.PathBase | api/jenkins_api.go:159 | the base is never empty, contains a slash only when it is `/`, and is `.` for the empty path |
| GoStrings.PathBaseLastSegment | api/jenkins_api.go:159 | a path whose last element is a segment yields that segment, whatever the trailing slashes |
| GoStrings.TruncDiv | cmd/stages.go:74 | integer division truncates toward zero, as Go's `/` does |

## Left out

- HTTP transport, basic authentication, base64 and the `url.Values` form encoding: the
  server is an input, and a request is recorded by its content (job, tag, pro).
- A recorded `Send` means "API call attempted". The configuration load inside `baseReq`
  comes before any HTTP request and can fail first. That failure is part of the reply's
  error, so the `Send` is still recorded. This applies to the crumb fetch, the queue
  lookups, the job-parameter request, the build-status request and CancelItem. Stop loads the configuration
  itself first, so its configuration failure is modelled separately and records no
  `Send`.
- JSON extraction with gjson (GetViews, GetViewJob, GetJobPararm, GetQueue, GetComputer,
  GetBuildStatus, GetBuildLog and the field reads of GetWFDescribe and
  GetPipelineConfig). Their decoded values are inputs. A number or a missing field is
  taken as already decoded.
- The crumb fetch itself (GetCrumb). It is modelled only by the two fields it returns,
  `""` when absent, and the error it passes through.
- YAML reading and writing, `os.Stat` and `os.ReadFile`. GetConfigFile takes their
  outcomes as inputs. GetWorkspaceFile, GetWprkspaceFile and `$HOME` lookup are inputs
  too.
- Terminal output: the colours of status messages, spinners, the 20 ms delay per printed line, and the message
  texts. Outcomes and events name what is shown rather than the text.
- The wording of wrapped error messages (`fmt.Errorf` chains). Errors are variants of
  one datatype.
- The begin-time line of the `stages` command (`time.UnixMilli(...).Format`), and the
  `time.Duration.String` rendering of stage durations, which overflows int64 for
  durations above about 292 years. The model keeps the truncated number of seconds.
- The other commands (init, queue, sync) and util/log_view.go, util/notice.go and
  util/err_util.go: they are outside the modelled core.
- Stop: the configuration is one input and the reply another. The second configuration
  load inside `buildRequest` and failures of request construction are folded into the
  reply's error.
- RootCommand.StrUISelect: a pick index outside the list is treated as a failed prompt.
  The prompt library never returns one, and the source would index out of range.
- StagesCommand.PollStage: the source loop has no bound. A `budget` caps the number of
  describe calls, and None says the budget ran out before a stage was confirmed
  (`StagesCommand.PollStageNoneMeansNoEvidence`: no call within it showed evidence).
- StagesCommand.PollAll: as for PollStage. None says the budget ran out on some stage
  (`StagesCommand.PollAllNoneMeansBudgetRanOut`: every earlier stage was ticked off and
  that stage's wait ran out).
- StagesCommand.StagesRun: the walk is bounded by the same budget. The banner-only exit
  and the walk are otherwise as in the source.
- LogCommand.Follow: the source's `for moreDate` loop has no bound. `fuel` caps the number
  of follow-up requests, and `finished == false` says the fuel ran out.
- LogCommand.LogRunOf: the replies are given as GetTextLog's decoded chunks. JenkinsApi
  states the header decoding separately.

=== FILE: config_validation.dfy ===
/** util/config.go: where the credentials and workspace files live, and the
    validation gate every configuration load passes through. */
module Config {
  import opened GoStrings
  import opened JenkinsTypes

  const BaseName: string := "jenkins-cli"
  const WorkspaceInfo: string := "workspace"
  const BaseConfigDir: string := "/.config/" + BaseName + "/" + BaseName + ".yaml"
  const WorkspaceInfoDir: string := "/.config/" + BaseName + "/" + WorkspaceInfo + ".yaml"

  /** The credentials file under the user's home directory. */
  function ConfigFilePath(home: string): (r: string)
    ensures r == home + "/.config/jenkins-cli/jenkins-cli.yaml"
  {
    home + BaseConfigDir
  }

  /** The workspace file, beside the credentials file. */
  function WorkspaceFilePath(home: string): (r: string)
    ensures r == home + "/.config/jenkins-cli/workspace.yaml"
  {
    home + WorkspaceInfoDir
  }

  /** For every home directory the two files are distinct and share their directory. */
  lemma ConfigAndWorkspaceDiffer(home: string)
    ensures ConfigFilePath(home) != WorkspaceFilePath(home)
    ensures ConfigFilePath(home)[..|home| + 21] == WorkspaceFilePath(home)[..|home| + 21]
  {
    var c := ConfigFilePath(home);
    var w := WorkspaceFilePath(home);
    assert c[|home| + 21] == 'j' && w[|home| + 21] == 'w';
  }

  /** The three required credentials, in the order validation reports them. */
  datatype Field = Username | Token | BaseApi

  function Rank(f: Field): nat {
    match f
    case Username => 0
    case Token => 1
    case BaseApi => 2
  }

  function FieldValue(cfg: JenkinsConfig, f: Field): string {
    match f
    case Username => cfg.username
    case Token => cfg.token
    case BaseApi => cfg.baseApi
  }

  function Message(f: Field): string {
    match f
    case Username => "username is required"
    case Token => "token is required"
    case BaseApi => "base_api is required"
  }

  function Messages(fields: seq<Field>): (r: seq<string>)
    ensures |r| == |fields|
  {
    seq(|fields|, i requires 0 <= i < |fields| => Message(fields[i]))
  }

  /** A field is missing when it is empty after strings.TrimSpace. */
  predicate Missing(cfg: JenkinsConfig, f: Field) {
    TrimSpace(FieldValue(cfg, f)) == ""
  }

  lemma MissingIffBlank(cfg: JenkinsConfig, f: Field)
    ensures Missing(cfg, f) <==> Blank(FieldValue(cfg, f))
  {
    TrimSpaceEmptyIffBlank(FieldValue(cfg, f));
  }

  predicate RankIncreasing(fields: seq<Field>) {
    forall i, j :: 0 <= i < j < |fields| ==> Rank(fields[i]) < Rank(fields[j])
  }

  /** The fields checked, in checking order. */
  const AllFields: seq<Field> := [Username, Token, BaseApi]

  /** The missing fields among `fields`, keeping their order. */
  function MissingAmong(cfg: JenkinsConfig, fields: seq<Field>): (r: seq<Field>)
    ensures forall f :: f in r <==> f in fields && Missing(cfg, f)
    decreases |fields|
  {
    if |fields| == 0 then []
    else (if Missing(cfg, fields[0]) then [fields[0]] else []) + MissingAmong(cfg, fields[1..])
  }

  lemma {:induction false} MissingAmongKeepsOrder(cfg: JenkinsConfig, fields: seq<Field>)
    requires RankIncreasing(fields)
    ensures RankIncreasing(MissingAmong(cfg, fields))
    decreases |fields|
  {
    if |fields| > 0 {
      MissingAmongKeepsOrder(cfg, fields[1..]);
      var rest := MissingAmong(cfg, fields[1..]);
      forall j | 0 <= j < |rest| ensures Rank(fields[0]) < Rank(rest[j]) {
        assert rest[j] in fields[1..];
        var m :| 0 <= m < |fields[1..]| && fields[1..][m] == rest[j];
        assert fields[m + 1] == rest[j];
      }
      var r := MissingAmong(cfg, fields);
      if Missing(cfg, fields[0]) {
        assert r == [fields[0]] + rest;
        forall i, j | 0 <= i < j < |r| ensures Rank(r[i]) < Rank(r[j]) {
          if i > 0 { assert r[i] == rest[i - 1]; }
          assert r[j] == rest[j - 1];
        }
      } else {
        assert r == rest;
      }
    }
  }

  /** The fields that are blank, each once, in the order username, token, base_api. */
  function MissingFields(cfg: JenkinsConfig): (r: seq<Field>)
    ensures Username in r <==> Blank(cfg.username)
    ensures Token in r <==> Blank(cfg.token)
    ensures BaseApi in r <==> Blank(cfg.baseApi)
    ensures RankIncreasing(r)
  {
    assert AllFields[0] == Username && AllFields[1] == Token && AllFields[2] == BaseApi;
    assert RankIncreasing(AllFields);
    MissingAmongKeepsOrder(cfg, AllFields);
    MissingIffBlank(cfg, Username);
    MissingIffBlank(cfg, Token);
    MissingIffBlank(cfg, BaseApi);
    MissingAmong(cfg, AllFields)
  }

  /** validateJenkinsConfig: None when all three fields hold a non-space character,
      otherwise one message listing every blank field, joined by ", ". */
  function ValidateJenkinsConfig(cfg: JenkinsConfig): (r: Option<string>)
    ensures r.None? <==> !Blank(cfg.username) && !Blank(cfg.token) && !Blank(cfg.baseApi)
    ensures r.Some? ==> r.value == "configuration validation failed: " + Join(Messages(MissingFields(cfg)), ", ")
  {
    var missing := MissingFields(cfg);
    if |missing| > 0 then
      Some("configuration validation failed: " + Join(Messages(missing), ", "))
    else
      None
  }

  /** Every blank field contributes exactly one message. */
  lemma MissingCount(cfg: JenkinsConfig)
    ensures |MissingFields(cfg)|
      == (if Blank(cfg.username) then 1 else 0)
       + (if Blank(cfg.token) then 1 else 0)
       + (if Blank(cfg.baseApi) then 1 else 0)
  {
    TrimSpaceEmptyIffBlank(cfg.username);
    TrimSpaceEmptyIffBlank(cfg.token);
    TrimSpaceEmptyIffBlank(cfg.baseApi);
  }

  /** Whitespace-only credentials are reported exactly like empty ones, and in the
      fixed order. */
  lemma WhitespaceCountsAsMissing(cfg: JenkinsConfig)
    requires cfg.username == " \t" && cfg.token == "tok" && cfg.baseApi == "\U{3000}"
    ensures MissingFields(cfg) == [Username, BaseApi]
    ensures ValidateJenkinsConfig(cfg)
      == Some("configuration validation failed: " + Join(["username is required", "base_api is required"], ", "))
  {
    assert Blank(cfg.username) && Blank(cfg.baseApi);
    assert !Blank(cfg.token) by { assert !IsSpace(cfg.token[0]); }
    var m := MissingFields(cfg);
    assert m == [Username, BaseApi] by {
      MissingCount(cfg);
      assert Username in m && BaseApi in m;
      assert Rank(m[0]) < Rank(m[1]);
    }
    assert Messages(m) == ["username is required", "base_api is required"];
  }

  /** GetConfigFile: the file must exist, be readable and parse; the parsed
      configuration is returned only when it passes validation. `fileExists`, `read`
      and `parsed` stand for os.Stat, os.ReadFile and yaml.Unmarshal. */
  function GetConfigFile(home: string, fileExists: bool, read: Result<string>, parsed: Result<JenkinsConfig>)
    : (r: Result<JenkinsConfig>)
    ensures r.Ok? <==> fileExists && read.Ok? && parsed.Ok? && ValidateJenkinsConfig(parsed.value).None?
    ensures r.Ok? ==> r.value == parsed.value
    ensures !fileExists ==> r == Err(ConfigNotFound(ConfigFilePath(home)))
    ensures fileExists && read.Ok? && parsed.Ok? && ValidateJenkinsConfig(parsed.value).Some? ==>
      r == Err(InvalidConfig("invalid configuration: " + ValidateJenkinsConfig(parsed.value).value))
  {
    if !fileExists then Err(ConfigNotFound(ConfigFilePath(home)))
    else if read.Err? then Err(read.error)
    else if parsed.Err? then Err(parsed.error)
    else
      match ValidateJenkinsConfig(parsed.value)
      case Some(message) => Err(InvalidConfig("invalid configuration: " + message))
      case None => Ok(parsed.value)
  }

  /** A loaded configuration always has all three credentials present. */
  lemma LoadedConfigIsValid(home: string, fileExists: bool, read: Result<string>, parsed: Result<JenkinsConfig>)
    requires GetConfigFile(home, fileExists, read, parsed).Ok?
    ensures var cfg := GetConfigFile(home, fileExists, read, parsed).value;
      TrimSpace(cfg.username) != "" && TrimSpace(cfg.token) != "" && TrimSpace(cfg.baseApi) != ""
  {
    var cfg := GetConfigFile(home, fileExists, read, parsed).value;
    TrimSpaceEmptyIffBlank(cfg.username);
    TrimSpaceEmptyIffBlank(cfg.token);
    TrimSpaceEmptyIffBlank(cfg.baseApi);
  }
}

=== FILE: go_strings.dfy ===
/** Models of the few Go standard-library string routines whose exact behaviour the
    jenkins-cli core depends on: strings.Contains, strings.TrimSpace (with
    unicode.IsSpace), strings.Join, splitting on "\n", strconv.Itoa,
    strconv.ParseInt(s, 10, 64), strconv.ParseBool, path.Base and Go's truncating
    integer division. */
module GoStrings {

  datatype Option<+T> = None | Some(value: T)

  const MinInt64: int := -0x8000_0000_0000_0000
  const MaxInt64: int := 0x7fff_ffff_ffff_ffff

  /** Go's `int64` (and `int` on 64-bit platforms). */
  type Int64 = x: int | MinInt64 <= x <= MaxInt64

  // ---------------------------------------------------------------------------
  // strings.Contains

  predicate HasPrefix(s: string, p: string) {
    |p| <= |s| && s[..|p|] == p
  }

  /** True iff `sub` occurs somewhere in `s` (scanning start positions left to right). */
  predicate Contains(s: string, sub: string)
    decreases |s|
  {
    HasPrefix(s, sub) || (|s| > 0 && Contains(s[1..], sub))
  }

  predicate OccursAt(s: string, sub: string, i: int) {
    0 <= i && i + |sub| <= |s| && s[i..i + |sub|] == sub
  }

  /** Contains agrees with the positional definition of a substring occurrence. */
  lemma {:induction false} ContainsIffOccurs(s: string, sub: string)
    ensures Contains(s, sub) <==> exists i :: OccursAt(s, sub, i)
    decreases |s|
  {
    if HasPrefix(s, sub) {
      assert OccursAt(s, sub, 0);
    }
    if |s| == 0 {
      assert forall i :: OccursAt(s, sub, i) ==> HasPrefix(s, sub);
    } else {
      ContainsIffOccurs(s[1..], sub);
      forall i | OccursAt(s[1..], sub, i) ensures OccursAt(s, sub, i + 1) {
        assert s[1..][i..i + |sub|] == s[i + 1..i + 1 + |sub|];
      }
      forall i | OccursAt(s, sub, i) ensures HasPrefix(s, sub) || OccursAt(s[1..], sub, i - 1) {
        if i > 0 {
          assert s[1..][i - 1..i - 1 + |sub|] == s[i..i + |sub|];
        }
      }
    }
  }

  // ---------------------------------------------------------------------------
  // strings.TrimSpace

  /** unicode.IsSpace: the Latin-1 spaces plus the other White_Space code points. */
  predicate IsSpace(c: char) {
    || c == '\t' || c == '\n' || c == '\U{000B}' || c == '\U{000C}' || c == '\r' || c == ' '
    || c == '\U{0085}' || c == '\U{00A0}' || c == '\U{1680}'
    || ('\U{2000}' <= c <= '\U{200A}')
    || c == '\U{2028}' || c == '\U{2029}' || c == '\U{202F}' || c == '\U{205F}' || c == '\U{3000}'
  }

  predicate Blank(s: string) {
    forall i :: 0 <= i < |s| ==> IsSpace(s[i])
  }

  function TrimLeftSpace(s: string): string
    decreases |s|
  {
    if |s| > 0 && IsSpace(s[0]) then TrimLeftSpace(s[1..]) else s
  }

  function TrimRightSpace(s: string): string
    decreases |s|
  {
    if |s| > 0 && IsSpace(s[|s| - 1]) then TrimRightSpace(s[..|s| - 1]) else s
  }

  /** strings.TrimSpace: drop leading and trailing white space. */
  function TrimSpace(s: string): string {
    TrimRightSpace(TrimLeftSpace(s))
  }

  /** TrimLeftSpace drops exactly the leading white space. */
  lemma {:induction false} TrimLeftSpaceDropsLeadingSpace(s: string)
    ensures var r := TrimLeftSpace(s);
      && |r| <= |s| && r == s[|s| - |r|..]
      && Blank(s[..|s| - |r|])
      && (|r| > 0 ==> !IsSpace(r[0]))
    decreases |s|
  {
    if |s| > 0 && IsSpace(s[0]) {
      TrimLeftSpaceDropsLeadingSpace(s[1..]);
      var r := TrimLeftSpace(s);
      assert s[..|s| - |r|] == [s[0]] + s[1..][..|s| - 1 - |r|];
    } else {
      assert s[..0] == [];
    }
  }

  /** TrimRightSpace drops exactly the trailing white space. */
  lemma {:induction false} TrimRightSpaceDropsTrailingSpace(s: string)
    ensures var r := TrimRightSpace(s);
      && |r| <= |s| && r == s[..|r|]
      && Blank(s[|r|..])
      && (|r| > 0 ==> !IsSpace(r[|r| - 1]))
    decreases |s|
  {
    if |s| > 0 && IsSpace(s[|s| - 1]) {
      var t := s[..|s| - 1];
      TrimRightSpaceDropsTrailingSpace(t);
      var r := TrimRightSpace(t);
      assert TrimRightSpace(s) == r;
      assert t[..|r|] == s[..|r|];
      forall i | |r| <= i < |s| ensures IsSpace(s[i]) {
        if i < |t| {
          assert s[i] == t[|r|..][i - |r|];
        }
      }
      assert forall i :: 0 <= i < |s| - |r| ==> s[|r|..][i] == s[|r| + i];
    } else {
      assert s[|s|..] == [];
    }
  }

  /** A string trims to "" exactly when every character in it is white space. */
  lemma TrimSpaceEmptyIffBlank(s: string)
    ensures TrimSpace(s) == "" <==> Blank(s)
  {
    TrimLeftSpaceDropsLeadingSpace(s);
    var l := TrimLeftSpace(s);
    TrimRightSpaceDropsTrailingSpace(l);
    assert s == s[..|s| - |l|] + l;
    assert l == l[0..];
    assert forall i :: 0 <= i < |l| ==> l[i] == s[|s| - |l| + i];
  }

  // ---------------------------------------------------------------------------
  // strings.Join and splitting on "\n"

  function Join(parts: seq<string>, sep: string): string
    decreases |parts|
  {
    if |parts| == 0 then ""
    else if |parts| == 1 then parts[0]
    else parts[0] + sep + Join(parts[1..], sep)
  }

  function CountChar(s: string, c: char): nat
    decreases |s|
  {
    if |s| == 0 then 0 else (if s[0] == c then 1 else 0) + CountChar(s[1..], c)
  }

  /** strings.Split(s, "\n") (the pieces strings.SplitSeq yields, in order). */
  function SplitLines(s: string): (r: seq<string>)
    ensures |r| >= 1
    decreases |s|
  {
    if |s| == 0 then [""]
    else if s[0] == '\n' then [""] + SplitLines(s[1..])
    else
      var rest := SplitLines(s[1..]);
      [[s[0]] + rest[0]] + rest[1..]
  }

  /** Joining the pieces back with "\n" gives the input. */
  lemma {:induction false} SplitLinesJoin(s: string)
    ensures Join(SplitLines(s), "\n") == s
    decreases |s|
  {
    if |s| > 0 {
      SplitLinesJoin(s[1..]);
      var rest := SplitLines(s[1..]);
      var r := SplitLines(s);
      assert s == [s[0]] + s[1..];
      if s[0] == '\n' {
        assert r == [""] + rest;
        assert r[1..] == rest;
      } else {
        assert r == [[s[0]] + rest[0]] + rest[1..];
        if |rest| > 1 {
          assert r[1..] == rest[1..];
          assert Join(rest, "\n") == rest[0] + "\n" + Join(rest[1..], "\n");
        }
      }
    }
  }

  /** k separators give k + 1 pieces. */
  lemma {:induction false} SplitLinesCount(s: string)
    ensures |SplitLines(s)| == CountChar(s, '\n') + 1
    decreases |s|
  {
    if |s| > 0 {
      SplitLinesCount(s[1..]);
    }
  }

  /** No piece contains a separator. */
  lemma {:induction false} SplitLinesNoSeparator(s: string)
    ensures forall k :: 0 <= k < |SplitLines(s)| ==> '\n' !in SplitLines(s)[k]
    decreases |s|
  {
    if |s| > 0 {
      SplitLinesNoSeparator(s[1..]);
      var rest := SplitLines(s[1..]);
      var r := SplitLines(s);
      if s[0] == '\n' {
        forall k | 0 <= k < |r| ensures '\n' !in r[k] {
          if k > 0 { assert r[k] == rest[k - 1]; }
        }
      } else {
        forall k | 0 <= k < |r| ensures '\n' !in r[k] {
          if k > 0 { assert r[k] == rest[k]; } else { assert '\n' !in rest[0]; }
        }
      }
    }
  }

  /** Splitting on "\n" loses nothing: joining the pieces back gives the input, k
      separators give k + 1 pieces, and no piece contains a separator. */
  lemma SplitLinesProperties(s: string)
    ensures Join(SplitLines(s), "\n") == s
    ensures |SplitLines(s)| == CountChar(s, '\n') + 1
    ensures forall k :: 0 <= k < |SplitLines(s)| ==> '\n' !in SplitLines(s)[k]
  {
    SplitLinesJoin(s);
    SplitLinesCount(s);
    SplitLinesNoSeparator(s);
  }

  // ---------------------------------------------------------------------------
  // strconv.Itoa and strconv.ParseInt(s, 10, 64)

  predicate IsDigit(c: char) {
    '0' as int <= c as int <= '9' as int
  }

  predicate AllDigits(s: string) {
    forall i :: 0 <= i < |s| ==> IsDigit(s[i])
  }

  function DigitChar(d: nat): (c: char)
    requires d < 10
    ensures IsDigit(c) && DigitValue(c) == d
  {
    ('0' as int + d) as char
  }

  /** Decimal digits of a natural number, most significant first, no leading zeros. */
  function NatDigits(n: nat): (r: string)
    ensures |r| >= 1 && AllDigits(r)
    ensures n > 0 ==> r[0] != '0'
    decreases n
  {
    if n < 10 then [DigitChar(n)] else NatDigits(n / 10) + [DigitChar(n % 10)]
  }

  /** strconv.Itoa: decimal rendering with a leading '-' for negatives. */
  function Itoa(n: int): string {
    if n < 0 then "-" + NatDigits(-n) else NatDigits(n)
  }

  function DigitsValue(s: string): nat
    requires AllDigits(s)
    decreases |s|
  {
    if |s| == 0 then 0 else DigitsValue(s[..|s| - 1]) * 10 + DigitValue(s[|s| - 1])
  }

  function DigitValue(c: char): nat
    requires IsDigit(c)
  {
    (c as int) - ('0' as int)
  }

  /** strconv.ParseInt(s, 10, 64): an optional sign, at least one decimal digit and
      nothing else, and the value must fit in an int64. */
  function ParseInt64(s: string): Option<Int64> {
    if |s| == 0 then None
    else
      var neg := s[0] == '-';
      var digits := if s[0] == '+' || s[0] == '-' then s[1..] else s;
      if |digits| == 0 || !AllDigits(digits) then None
      else
        var v := DigitsValue(digits);
        if neg then (if v <= -MinInt64 then Some(0 - v) else None)
        else (if v <= MaxInt64 then Some(v) else None)
  }

  lemma {:induction false} NatDigitsValue(n: nat)
    ensures DigitsValue(NatDigits(n)) == n
    decreases n
  {
    if n >= 10 {
      NatDigitsValue(n / 10);
      var d := NatDigits(n);
      assert d[..|d| - 1] == NatDigits(n / 10);
    }
  }

  /** Rendering an int64 with Itoa and parsing it back with ParseInt gives it back. */
  lemma ItoaParseRoundTrip(n: Int64)
    ensures ParseInt64(Itoa(n)) == Some(n)
  {
    if n < 0 {
      var m: nat := 0 - n;
      var d := NatDigits(m);
      NatDigitsValue(m);
      assert Itoa(n)[0] == '-' && Itoa(n)[1..] == d;
    } else {
      var d := NatDigits(n);
      NatDigitsValue(n);
      assert IsDigit(d[0]);
    }
  }

  // ---------------------------------------------------------------------------
  // strconv.ParseBool

  /** strconv.ParseBool: the twelve spellings Go accepts; anything else is an error. */
  function ParseBool(s: string): (r: Option<bool>)
    ensures r == Some(true) <==> s in {"1", "t", "T", "TRUE", "true", "True"}
    ensures r == Some(false) <==> s in {"0", "f", "F", "FALSE", "false", "False"}
  {
    match s
    case "1" => Some(true)
    case "t" => Some(true)
    case "T" => Some(true)
    case "TRUE" => Some(true)
    case "true" => Some(true)
    case "True" => Some(true)
    case "0" => Some(false)
    case "f" => Some(false)
    case "F" => Some(false)
    case "FALSE" => Some(false)
    case "false" => Some(false)
    case "False" => Some(false)
    case _ => None
  }

  // ---------------------------------------------------------------------------
  // path.Base

  function Slashes(k: nat): (r: string)
    ensures |r| == k && forall i :: 0 <= i < k ==> r[i] == '/'
  {
    if k == 0 then "" else Slashes(k - 1) + "/"
  }

  function TrimTrailingSlashes(p: string): (r: string)
    ensures |r| <= |p| && r == p[..|r|]
    ensures forall i :: |r| <= i < |p| ==> p[i] == '/'
    ensures |r| > 0 ==> r[|r| - 1] != '/'
    decreases |p|
  {
    if |p| > 0 && p[|p| - 1] == '/' then TrimTrailingSlashes(p[..|p| - 1]) else p
  }

  /** The part of `p` after its last '/', or all of `p` when it has none. */
  function AfterLastSlash(p: string): (r: string)
    ensures |r| <= |p| && r == p[|p| - |r|..]
    ensures '/' !in r
    ensures |r| < |p| ==> p[|p| - |r| - 1] == '/'
    decreases |p|
  {
    if |p| == 0 then p
    else if p[|p| - 1] == '/' then ""
    else AfterLastSlash(p[..|p| - 1]) + [p[|p| - 1]]
  }

  /** path.Base: the last element of a slash-separated path, ignoring trailing
      slashes; "." for the empty path and "/" for a path of slashes only. */
  function PathBase(p: string): (r: string)
    ensures r != ""
    ensures '/' in r ==> r == "/"
    ensures p == "" ==> r == "."
  {
    if p == "" then "."
    else
      var b := AfterLastSlash(TrimTrailingSlashes(p));
      if b == "" then "/" else b
  }

  /** A Location path whose last element is `seg` yields `seg`, however many
      trailing slashes follow it. */
  lemma PathBaseLastSegment(prefix: string, seg: string, k: nat)
    requires seg != "" && '/' !in seg
    ensures PathBase(prefix + "/" + seg + Slashes(k)) == seg
  {
    var q := prefix + "/" + seg;
    var p := q + Slashes(k);
    var t := TrimTrailingSlashes(p);
    assert p[|q| - 1] == seg[|seg| - 1] != '/';
    assert forall i :: |q| <= i < |p| ==> p[i] == '/';
    assert |t| >= |q| && t[|t| - 1] == p[|t| - 1];
    assert t == q;
    var b := AfterLastSlash(t);
    assert t[|prefix|] == '/';
    assert forall i :: |t| - |b| <= i < |t| ==> t[i] == b[i - (|t| - |b|)];
    assert forall i :: |prefix| < i < |t| ==> t[i] == seg[i - |prefix| - 1];
    assert b == t[|t| - |seg|..] == seg;
  }

  // ---------------------------------------------------------------------------
  // Go integer division

  /** Go's `/` on integers truncates toward zero (Dafny's is Euclidean). */
  function TruncDiv(a: int, b: int): (q: int)
    requires b > 0
    ensures a >= 0 ==> q * b <= a < (q + 1) * b
    ensures a < 0 ==> (q - 1) * b < a <= q * b
  {
    if a >= 0 then a / b else -((-a) / b)
  }
}

=== FILE: jenkins_api.dfy ===
/** The decision logic of api/jenkins_api.go over replies already taken off the wire:
    crumb check and status/Location handling of the build POST, queue-item build
    numbers, the progressive-log query string and header defaults, and the stop and
    cancel status classification. Each server reply is an input; each request the
    code would send is recorded as an effect. */
module JenkinsApi {
  import opened GoStrings
  import opened JenkinsTypes

  /** What a call returned, and the requests it sent, in order. */
  datatype Call<+T> = Call(result: Result<T>, effects: seq<Effect>)

  // ---------------------------------------------------------------------------
  // BuildWithParameters

  /** The crumb issuer's two fields; a field absent from the reply reads as "". */
  datatype Crumb = Crumb(field: string, value: string)

  /** Reply to the build POST: status code, and the path of the Location header as
      url.Parse returned it (None when url.Parse failed). A missing header parses to
      the empty path. */
  datatype PostReply = PostReply(status: int, locationPath: Option<string>)

  predicate CrumbUsable(crumb: Result<Crumb>) {
    crumb.Ok? && crumb.value.field != "" && crumb.value.value != ""
  }

  /** Whether the build POST is sent: only with a usable crumb and a loaded
      configuration. */
  predicate PostSent(crumb: Result<Crumb>, cfg: Result<JenkinsConfig>) {
    CrumbUsable(crumb) && cfg.Ok?
  }

  /** BuildWithParameters: fetch a crumb, refuse an empty one, POST the form
      (tag = branch, pro = choices) and accept only status 201, whose queue id is the
      last element of the Location path. */
  function BuildWithParameters(
    job: string, choices: string, branch: string,
    crumb: Result<Crumb>, cfg: Result<JenkinsConfig>, post: Result<PostReply>)
    : (c: Call<string>)
    ensures |c.effects| >= 1 && c.effects[0] == Send(CrumbRequest)
    ensures c.effects == [Send(CrumbRequest)] + (if PostSent(crumb, cfg) then [Send(BuildPost(job, branch, choices))] else [])
    ensures crumb.Err? ==> c.result == Err(CrumbFailed(crumb.error))
    ensures crumb.Ok? && !CrumbUsable(crumb) ==> c.result == Err(EmptyCrumb)
    ensures c.result.Ok? <==>
      PostSent(crumb, cfg) && post.Ok? && post.value.status == 201 && post.value.locationPath.Some?
    ensures c.result.Ok? ==> c.result.value == PathBase(post.value.locationPath.value)
    ensures PostSent(crumb, cfg) && post.Ok? && post.value.status != 201 ==>
      c.result == Err(BuildRejected(post.value.status))
  {
    var fetchCrumb := [Send(CrumbRequest)];
    if crumb.Err? then Call(Err(CrumbFailed(crumb.error)), fetchCrumb)
    else if crumb.value.field == "" || crumb.value.value == "" then Call(Err(EmptyCrumb), fetchCrumb)
    else if cfg.Err? then Call(Err(cfg.error), fetchCrumb)
    else
      var effects := fetchCrumb + [Send(BuildPost(job, branch, choices))];
      if post.Err? then Call(Err(post.error), effects)
      else if post.value.status == 201 then
        match post.value.locationPath
        case None => Call(Err(BadLocation), effects)
        case Some(path) => Call(Ok(PathBase(path)), effects)
      else Call(Err(BuildRejected(post.value.status)), effects)
  }

  /** The worked example: 201 with Location http://host/queue/item/42/ gives "42". */
  lemma SubmissionExample(crumb: Crumb, cfg: JenkinsConfig)
    requires crumb.field != "" && crumb.value != ""
    ensures BuildWithParameters("deploy", "prod", "main", Ok(crumb), Ok(cfg),
      Ok(PostReply(201, Some("/queue/item/42/")))).result == Ok("42")
  {
    PathBaseLastSegment("/queue/item", "42", 1);
    assert "/queue/item" + "/" + "42" + Slashes(1) == "/queue/item/42/";
  }

  /** The queue id returned never contains a slash and is never empty. */
  lemma QueueIdIsOneSegment(
    job: string, choices: string, branch: string,
    crumb: Result<Crumb>, cfg: Result<JenkinsConfig>, post: Result<PostReply>)
    requires BuildWithParameters(job, choices, branch, crumb, cfg, post).result.Ok?
    ensures var id := BuildWithParameters(job, choices, branch, crumb, cfg, post).result.value;
      id != "" && (id == "/" || '/' !in id)
  {
  }

  // ---------------------------------------------------------------------------
  // GetBuildNumber

  /** GetBuildNumber: the queue item's executable.number rendered as text, or ""
      while the item has no executable yet ("still queued" is not an error). */
  function GetBuildNumber(reply: Result<Option<Int64>>): (r: Result<string>)
    ensures reply.Err? ==> r == Err(reply.error)
    ensures r == Ok("") <==> reply == Ok(None)
  {
    match reply
    case Err(e) => Err(e)
    case Ok(None) => Ok("")
    case Ok(Some(n)) => Ok(Itoa(n))
  }

  /** The build number text reads back as the queue item's executable number. */
  lemma BuildNumberReadsBack(n: Int64)
    ensures GetBuildNumber(Ok(Some(n))).Ok?
    ensures ParseInt64(GetBuildNumber(Ok(Some(n))).value) == Some(n)
  {
    ItoaParseRoundTrip(n);
  }

  // ---------------------------------------------------------------------------
  // GetTextLog

  /** The raw progressive-text reply: body and the two headers, "" when absent. */
  datatype LogReply = LogReply(body: string, moreDataHeader: string, textSizeHeader: string)

  /** One chunk of a build log. */
  datatype LogChunk = LogChunk(text: string, moreData: bool, textSize: Int64)

  function LogBase(job: string, build: string): string {
    "/job/" + job + "/" + build + "/logText/progressiveText"
  }

  /** The request path: no query without a start offset, `?start=n` with one. */
  function LogPath(job: string, build: string, start: Option<Int64>): (r: string)
    ensures |LogBase(job, build)| <= |r| && r[..|LogBase(job, build)|] == LogBase(job, build)
    ensures start.None? <==> r == LogBase(job, build)
    ensures start.Some? ==>
      var b := |LogBase(job, build)|;
      |r| > b + 7 && r[b..b + 7] == "?start=" && ParseInt64(r[b + 7..]) == Some(start.value)
  {
    match start
    case None => LogBase(job, build)
    case Some(n) =>
      var b := LogBase(job, build);
      var r := b + "?start=" + Itoa(n);
      ItoaParseRoundTrip(n);
      assert r[|b|..|b| + 7] == "?start=";
      assert r[|b| + 7..] == Itoa(n);
      r
  }

  /** X-More-Data: the header parsed with strconv.ParseBool; false when absent or
      unparseable. */
  function MoreDataHeader(h: string): (b: bool)
    ensures b <==> h in {"1", "t", "T", "TRUE", "true", "True"}
  {
    if h == "" then false
    else match ParseBool(h)
      case Some(v) => v
      case None => false
  }

  /** X-Text-Size: the header parsed with strconv.ParseInt(h, 10, 64); -1 when absent
      or unparseable. */
  function TextSizeHeader(h: string): (n: Int64)
    ensures ParseInt64(h).Some? ==> n == ParseInt64(h).value
    ensures ParseInt64(h).None? ==> n == -1
  {
    if h == "" then -1
    else match ParseInt64(h)
      case Some(v) => v
      case None => -1
  }

  /** A text size sent by the server as decimal text is read back unchanged. */
  lemma TextSizeRoundTrip(n: Int64)
    ensures TextSizeHeader(Itoa(n)) == n
  {
    ItoaParseRoundTrip(n);
  }

  /** GetTextLog: the body is the chunk text; a header that parses sets the chunk's
      flag or size, and one that is absent or malformed leaves the defaults
      moreData = false and textSize = -1. A request error passes through. */
  function GetTextLog(reply: Result<LogReply>): (r: Result<LogChunk>)
    ensures reply.Err? <==> r.Err?
    ensures reply.Err? ==> r.error == reply.error
    ensures reply.Ok? ==> r.value.text == reply.value.body
    ensures reply.Ok? && reply.value.moreDataHeader == "" ==> !r.value.moreData
    ensures reply.Ok? && reply.value.textSizeHeader == "" ==> r.value.textSize == -1
    ensures reply.Ok? && ParseBool(reply.value.moreDataHeader).None? ==> !r.value.moreData
    ensures reply.Ok? && ParseInt64(reply.value.textSizeHeader).None? ==> r.value.textSize == -1
    ensures reply.Ok? ==> (r.value.moreData <==> reply.value.moreDataHeader in {"1", "t", "T", "TRUE", "true", "True"})
    ensures reply.Ok? && ParseInt64(reply.value.textSizeHeader).Some? ==>
      r.value.textSize == ParseInt64(reply.value.textSizeHeader).value
  {
    match reply
    case Err(e) => Err(e)
    case Ok(raw) => Ok(LogChunk(raw.body, MoreDataHeader(raw.moreDataHeader), TextSizeHeader(raw.textSizeHeader)))
  }

  // ---------------------------------------------------------------------------
  // Stop and CancleItem

  predicate ControlAccepted(status: int) {
    status == 200 || status == 302
  }

  /** Stop: load the configuration, POST .../stop, and succeed only on 200 or 302. */
  function Stop(job: string, build: string, cfg: Result<JenkinsConfig>, reply: Result<int>): (c: Call<bool>)
    ensures cfg.Err? ==> c == Call(Err(cfg.error), [])
    ensures cfg.Ok? ==> c.effects == [Send(StopPost(job, build))]
    ensures c.result.Ok? <==> cfg.Ok? && reply.Ok? && ControlAccepted(reply.value)
    ensures c.result.Ok? ==> c.result.value
    ensures cfg.Ok? && reply.Ok? && !ControlAccepted(reply.value) ==> c.result == Err(StopRejected(reply.value))
  {
    if cfg.Err? then Call(Err(cfg.error), [])
    else
      var effects := [Send(StopPost(job, build))];
      match reply
      case Err(e) => Call(Err(e), effects)
      case Ok(status) =>
        if status == 200 || status == 302 then Call(Ok(true), effects)
        else Call(Err(StopRejected(status)), effects)
  }

  /** CancleItem: an empty queue id is refused before any request; otherwise GET
      /queue/cancelItem and succeed only on 200 or 302. */
  function CancelItem(queueId: string, reply: Result<int>): (c: Call<bool>)
    ensures queueId == "" ==> c == Call(Err(EmptyQueueId), [])
    ensures queueId != "" ==> c.effects == [Send(CancelRequest(queueId))]
    ensures c.result.Ok? <==> queueId != "" && reply.Ok? && ControlAccepted(reply.value)
    ensures c.result.Ok? ==> c.result.value
    ensures queueId != "" && reply.Ok? && !ControlAccepted(reply.value) ==>
      c.result == Err(CancelRejected(reply.value))
  {
    if queueId == "" then Call(Err(EmptyQueueId), [])
    else
      var effects := [Send(CancelRequest(queueId))];
      match reply
      case Err(e) => Call(Err(e), effects)
      case Ok(status) =>
        if status == 200 || status == 302 then Call(Ok(true), effects)
        else Call(Err(CancelRejected(status)), effects)
  }
}

=== FILE: jenkins_types.dfy ===
/** The records of config/global_constan.go, the error taxonomy of the API layer, and
    the requests and pauses a command makes, which the model records as a trace
    instead of performing them. */
module JenkinsTypes {
  /** Credentials file contents (yaml keys username, token, base_api). */
  datatype JenkinsConfig = JenkinsConfig(username: string, token: string, baseApi: string)

  /** Workspace file: views, each with its jobs and their cached parameter choices. */
  datatype JobParam = JobParam(choices: seq<string>, branch: seq<string>)
  datatype Job = Job(name: string, jobParam: JobParam)
  datatype View = View(name: string, jobs: seq<Job>)
  datatype Workspace = Workspace(views: seq<View>)

  /** A build request waiting in the server's queue. */
  datatype Queue = Queue(
    id: string, taskName: string, params: string, why: string,
    blocked: bool, stuck: bool, inQueueSince: string)

  datatype ChangeSet = ChangeSet(commitId: string, timestamp: string, authorFullName: string, comment: string)

  datatype BuildInfo = BuildInfo(
    queueId: string, buildNumber: string, building: bool, duration: int,
    fullDisplayName: string, changeSets: seq<ChangeSet>)

  /** A pipeline stage; its identity is `id`. */
  datatype Stage = Stage(
    id: string, name: string, status: string,
    startTimeMillis: int, durationMillis: int, pauseDurationMillis: int)

  /** A workflow run description; `queueId` carries the run id. */
  datatype WFDescribe = WFDescribe(
    queueId: string, status: string, startTimeMillis: int, endTimeMillis: int,
    durationMillis: int, stages: seq<Stage>)

  /** Go's zero value of WFDescribe, which GetWFDescribe returns alongside an error. */
  const ZeroDescribe: WFDescribe := WFDescribe("", "", 0, 0, 0, [])

  /** Why an operation failed. `Transport` covers everything the server oracle can
      report for one call: configuration load failure, request failure, read failure. */
  datatype Error =
    | Transport(message: string)
    | EmptyCrumb
    | CrumbFailed(cause: Error)
    | BadLocation
    | BuildRejected(code: int)
    | StopRejected(code: int)
    | CancelRejected(code: int)
    | EmptyQueueId
    | ConfigNotFound(path: string)
    | InvalidConfig(message: string)

  datatype Result<+T> = Ok(value: T) | Err(error: Error)

  /** The server requests the commands issue. */
  datatype Request =
    | CrumbRequest
    | BuildPost(job: string, tag: string, pro: string)
    | QueueLookup(queueId: string)
    | JobParamsRequest(job: string)
    | BuildStatusRequest(job: string, build: string)
    | StopPost(job: string, build: string)
    | CancelRequest(queueId: string)

  /** One observable step of a command: a request or a fixed pause. */
  datatype Effect = Send(request: Request) | Sleep(seconds: nat)

  predicate IsPost(e: Effect) {
    e.Send? && e.request.BuildPost?
  }

  function CountPosts(effects: seq<Effect>): nat {
    if |effects| == 0 then 0 else (if IsPost(effects[0]) then 1 else 0) + CountPosts(effects[1..])
  }

  function CountCrumbFetches(effects: seq<Effect>): nat {
    if |effects| == 0 then 0
    else (if effects[0] == Send(CrumbRequest) then 1 else 0) + CountCrumbFetches(effects[1..])
  }

  lemma {:induction false} CountsDistribute(a: seq<Effect>, b: seq<Effect>)
    ensures CountPosts(a + b) == CountPosts(a) + CountPosts(b)
    ensures CountCrumbFetches(a + b) == CountCrumbFetches(a) + CountCrumbFetches(b)
    decreases |a|
  {
    if |a| == 0 {
      assert a + b == b;
    } else {
      CountsDistribute(a[1..], b);
      assert (a + b)[0] == a[0];
      assert (a + b)[1..] == a[1..] + b;
    }
  }
}

=== FILE: log_command.dfy ===
/** cmd/log.go: fetch a build's console log chunk by chunk and print it line by line,
    each line coloured by the first severity word it contains. `chunks(k)` is what
    GetTextLog returned for the k-th log request. The `for moreDate` loop has no bound in the
    source; `fuel` caps the number of follow-up requests and an unfinished run says the
    fuel ran out. */
module LogCommand {
  import opened GoStrings
  import opened JenkinsTypes
  import opened JenkinsApi

  // ---------------------------------------------------------------------------
  // printLogLine

  datatype Colour = White | Yellow | Red

  /** The switch in printLogLine: INFO, then WARN, then ERROR, then the default. */
  datatype Severity = Info | Warn | Failure | Plain

  function Classify(line: string): Severity {
    if Contains(line, "INFO") then Info
    else if Contains(line, "WARN") then Warn
    else if Contains(line, "ERROR") then Failure
    else Plain
  }

  function ColourOf(s: Severity): Colour {
    match s
    case Info => White
    case Warn => Yellow
    case Failure => Red
    case Plain => White
  }

  /** The first matching case wins: a line is red exactly when it mentions ERROR and
      neither INFO nor WARN, yellow exactly when it mentions WARN but not INFO, and
      white otherwise. */
  lemma ColourPrecedence(line: string)
    ensures ColourOf(Classify(line)) == Red <==>
      Contains(line, "ERROR") && !Contains(line, "INFO") && !Contains(line, "WARN")
    ensures ColourOf(Classify(line)) == Yellow <==> Contains(line, "WARN") && !Contains(line, "INFO")
    ensures ColourOf(Classify(line)) == White <==>
      Contains(line, "INFO") || (!Contains(line, "WARN") && !Contains(line, "ERROR"))
  {
  }

  /** A printed line: its colour and its text. */
  datatype Line = Line(colour: Colour, text: string)

  function Texts(lines: seq<Line>): (r: seq<string>)
    ensures |r| == |lines| && forall i :: 0 <= i < |lines| ==> r[i] == lines[i].text
  {
    if |lines| == 0 then [] else [lines[0].text] + Texts(lines[1..])
  }

  function Render(pieces: seq<string>): (r: seq<Line>)
    ensures |r| == |pieces|
    ensures forall i :: 0 <= i < |pieces| ==> r[i] == Line(ColourOf(Classify(pieces[i])), pieces[i])
  {
    if |pieces| == 0 then [] else [Line(ColourOf(Classify(pieces[0])), pieces[0])] + Render(pieces[1..])
  }

  /** printLogLine: nothing for an empty chunk; otherwise one coloured line per piece
      of the chunk split at '\n'. */
  function PrintLogLine(text: string): (r: seq<Line>)
    ensures text == "" <==> r == []
    ensures text != "" ==> |r| == CountChar(text, '\n') + 1
    ensures forall i :: 0 <= i < |r| ==> '\n' !in r[i].text
    ensures forall i :: 0 <= i < |r| ==> r[i].colour == ColourOf(Classify(r[i].text))
  {
    SplitLinesProperties(text);
    if text == "" then [] else Render(SplitLines(text))
  }

  /** The printed lines, rejoined with '\n', give back the chunk: nothing is lost,
      reordered or added. */
  lemma PrintedTextRoundTrip(text: string)
    ensures Join(Texts(PrintLogLine(text)), "\n") == text
  {
    SplitLinesProperties(text);
    if text != "" {
      var pieces := SplitLines(text);
      assert Texts(Render(pieces)) == pieces;
    }
  }

  // ---------------------------------------------------------------------------
  // logCmd.Run

  /** One step of the command as the user sees it: a chunk handed to printLogLine,
      the completion message, an error message, or the usage hint. */
  datatype Event =
    | Shown(text: string)
    | Completed
    | FirstFetchFailed(error: Error)
    | MoreFetchFailed(error: Error)
    | Usage

  /** The coloured log lines the events put on the terminal, in order. */
  function Screen(events: seq<Event>): seq<Line> {
    if |events| == 0 then []
    else (if events[0].Shown? then PrintLogLine(events[0].text) else []) + Screen(events[1..])
  }

  /** The log requests made (the `start` offset of each), the events, and whether the
      command came to its end within the fuel. */
  datatype LogRun = LogRun(starts: seq<Option<Int64>>, events: seq<Event>, finished: bool)

  /** The event a follow-up request produces. */
  function FollowEvent(chunk: Result<LogChunk>): Event {
    if chunk.Ok? then Shown(chunk.value.text) else MoreFetchFailed(chunk.error)
  }

  /** The follow loop from request `k` on, asking from offset `start`. */
  function Follow(chunks: nat -> Result<LogChunk>, k: nat, start: Int64, fuel: nat): (r: LogRun)
    ensures |r.starts| <= fuel && |r.events| == |r.starts|
    ensures fuel > 0 ==> |r.starts| >= 1 && r.starts[0] == Some(start)
    ensures !r.finished ==> |r.starts| == fuel
    decreases fuel
  {
    if fuel == 0 then LogRun([], [], false)
    else if chunks(k).Err? then LogRun([Some(start)], [MoreFetchFailed(chunks(k).error)], true)
    else if !chunks(k).value.moreData then LogRun([Some(start)], [Shown(chunks(k).value.text)], true)
    else
      var rest := Follow(chunks, k + 1, chunks(k).value.textSize, fuel - 1);
      LogRun([Some(start)] + rest.starts, [Shown(chunks(k).value.text)] + rest.events, rest.finished)
  }

  /** Whether the command asks for another chunk after request `k`. The first request
      continues only when the server reported both more data and a text size. */
  predicate Continues(chunks: nat -> Result<LogChunk>, k: nat) {
    chunks(k).Ok? && chunks(k).value.moreData && (k == 0 ==> chunks(k).value.textSize != -1)
  }

  /** logCmd.Run: needs a job and a build number; the first request has no start
      offset; a complete first chunk is printed and followed by the completion message;
      otherwise chunks are followed, each from the previous chunk's text size, while
      the server reports more data. */
  function LogRunOf(args: seq<string>, chunks: nat -> Result<LogChunk>, fuel: nat): (r: LogRun)
    ensures |args| < 2 ==> r == LogRun([], [Usage], true)
    ensures |args| >= 2 ==> |r.starts| >= 1 && r.starts[0] == None
    ensures |args| >= 2 && chunks(0).Err? ==> r == LogRun([None], [FirstFetchFailed(chunks(0).error)], true)
    ensures |args| >= 2 && chunks(0).Ok? && !Continues(chunks, 0) ==>
      r == LogRun([None], [Shown(chunks(0).value.text), Completed], true)
    ensures |args| >= 2 && Continues(chunks, 0) ==> |r.events| == |r.starts| && r.events[0] == Shown(chunks(0).value.text)
  {
    if |args| < 2 then LogRun([], [Usage], true)
    else if chunks(0).Err? then LogRun([None], [FirstFetchFailed(chunks(0).error)], true)
    else
      var c := chunks(0).value;
      if c.textSize == -1 || !c.moreData then LogRun([None], [Shown(c.text), Completed], true)
      else
        var rest := Follow(chunks, 1, c.textSize, fuel);
        LogRun([None] + rest.starts, [Shown(c.text)] + rest.events, rest.finished)
  }

  lemma FollowStep(chunks: nat -> Result<LogChunk>, k: nat, start: Int64, fuel: nat)
    requires fuel > 0 && chunks(k).Ok? && chunks(k).value.moreData
    ensures Follow(chunks, k, start, fuel).starts ==
      [Some(start)] + Follow(chunks, k + 1, chunks(k).value.textSize, fuel - 1).starts
  {
  }

  lemma FollowStepEvents(chunks: nat -> Result<LogChunk>, k: nat, start: Int64, fuel: nat)
    requires fuel > 0 && chunks(k).Ok? && chunks(k).value.moreData
    ensures Follow(chunks, k, start, fuel).events ==
      [Shown(chunks(k).value.text)] + Follow(chunks, k + 1, chunks(k).value.textSize, fuel - 1).events
  {
  }

  lemma FollowFirstEvent(chunks: nat -> Result<LogChunk>, k: nat, start: Int64, fuel: nat)
    requires fuel > 0
    ensures |Follow(chunks, k, start, fuel).events| >= 1
    ensures Follow(chunks, k, start, fuel).events[0] == FollowEvent(chunks(k))
  {
  }

  /** Each follow-up request starts at the text size the previous reply reported. */
  lemma {:induction false} FollowStartsChain(chunks: nat -> Result<LogChunk>, k: nat, start: Int64, fuel: nat)
    ensures forall j :: k <= j < k + |Follow(chunks, k, start, fuel).starts| - 1 ==>
      chunks(j).Ok? && Follow(chunks, k, start, fuel).starts[j - k + 1] == Some(chunks(j).value.textSize)
    decreases fuel
  {
    if fuel > 0 && chunks(k).Ok? && chunks(k).value.moreData {
      var c := chunks(k).value;
      FollowStartsChain(chunks, k + 1, c.textSize, fuel - 1);
      var rest := Follow(chunks, k + 1, c.textSize, fuel - 1).starts;
      var r := Follow(chunks, k, start, fuel).starts;
      FollowStep(chunks, k, start, fuel);
      forall j | k <= j < k + |r| - 1
        ensures chunks(j).Ok? && r[j - k + 1] == Some(chunks(j).value.textSize)
      {
        assert r[j - k + 1] == rest[j - k];
      }
    }
  }

  /** Each follow-up request shows its own reply: the chunk's text, or the error. */
  lemma {:induction false} FollowEventsInOrder(chunks: nat -> Result<LogChunk>, k: nat, start: Int64, fuel: nat)
    ensures forall i :: 0 <= i < |Follow(chunks, k, start, fuel).events| ==>
      Follow(chunks, k, start, fuel).events[i] == FollowEvent(chunks(k + i))
    decreases fuel
  {
    if fuel > 0 {
      FollowFirstEvent(chunks, k, start, fuel);
      if chunks(k).Ok? && chunks(k).value.moreData {
        var c := chunks(k).value;
        FollowEventsInOrder(chunks, k + 1, c.textSize, fuel - 1);
        var rest := Follow(chunks, k + 1, c.textSize, fuel - 1).events;
        var r := Follow(chunks, k, start, fuel).events;
        FollowStepEvents(chunks, k, start, fuel);
        forall i | 1 <= i < |r|
          ensures r[i] == FollowEvent(chunks(k + i))
        {
          assert r[i] == rest[i - 1];
          assert rest[i - 1] == FollowEvent(chunks(k + 1 + (i - 1)));
        }
      }
    }
  }

  /** A reply that ends the follow loop: an error, or no more data. */
  predicate Ends(chunks: nat -> Result<LogChunk>, j: nat) {
    chunks(j).Err? || !chunks(j).value.moreData
  }

  /** Every reply before the follow loop's last one continued the loop. */
  lemma {:induction false} FollowContinuesUntilLast(chunks: nat -> Result<LogChunk>, k: nat, start: Int64, fuel: nat)
    ensures forall j :: k <= j < k + |Follow(chunks, k, start, fuel).starts| - 1 ==> !Ends(chunks, j)
    decreases fuel
  {
    if fuel > 0 && !Ends(chunks, k) {
      FollowContinuesUntilLast(chunks, k + 1, chunks(k).value.textSize, fuel - 1);
      FollowStep(chunks, k, start, fuel);
    }
  }

  /** A follow loop that finished stopped at a reply that ends it. */
  lemma {:induction false} FollowStopsAtEnd(chunks: nat -> Result<LogChunk>, k: nat, start: Int64, fuel: nat)
    requires Follow(chunks, k, start, fuel).finished
    ensures |Follow(chunks, k, start, fuel).starts| >= 1
    ensures Ends(chunks, k + |Follow(chunks, k, start, fuel).starts| - 1)
    decreases fuel
  {
    if !Ends(chunks, k) {
      FollowStopsAtEnd(chunks, k + 1, chunks(k).value.textSize, fuel - 1);
      FollowStep(chunks, k, start, fuel);
    }
  }

  /** Requests, characterised for the whole command: the first has no offset, every
      later one starts at the previous reply's text size, and the command stops exactly
      at the first reply that does not continue it. */
  lemma LogRequestsCharacterised(args: seq<string>, chunks: nat -> Result<LogChunk>, fuel: nat)
    requires |args| >= 2
    ensures forall j :: 0 <= j < |LogRunOf(args, chunks, fuel).starts| - 1 ==>
      chunks(j).Ok? && LogRunOf(args, chunks, fuel).starts[j + 1] == Some(chunks(j).value.textSize)
    ensures forall j :: 0 <= j < |LogRunOf(args, chunks, fuel).starts| - 1 ==> Continues(chunks, j)
    ensures LogRunOf(args, chunks, fuel).finished ==> !Continues(chunks, |LogRunOf(args, chunks, fuel).starts| - 1)
    ensures !LogRunOf(args, chunks, fuel).finished ==> |LogRunOf(args, chunks, fuel).starts| == fuel + 1
  {
    if Continues(chunks, 0) {
      var c := chunks(0).value;
      FollowStartsChain(chunks, 1, c.textSize, fuel);
      FollowContinuesUntilLast(chunks, 1, c.textSize, fuel);
      var rest := Follow(chunks, 1, c.textSize, fuel);
      if rest.finished {
        FollowStopsAtEnd(chunks, 1, c.textSize, fuel);
      }
      var r := LogRunOf(args, chunks, fuel);
      assert r.starts == [None] + rest.starts;
      forall j | 1 <= j < |r.starts| - 1
        ensures chunks(j).Ok? && r.starts[j + 1] == Some(chunks(j).value.textSize)
      {
        assert r.starts[j + 1] == rest.starts[j];
      }
      forall j | 1 <= j < |r.starts| - 1
        ensures Continues(chunks, j)
      {
        assert !Ends(chunks, j);
      }
    } else {
      assert |LogRunOf(args, chunks, fuel).starts| == 1;
    }
  }

  /** When the first chunk continues, every request shows its own reply, in request
      order, and the completion message never appears. */
  lemma FollowedLogShowsEveryChunk(args: seq<string>, chunks: nat -> Result<LogChunk>, fuel: nat)
    requires |args| >= 2 && Continues(chunks, 0)
    ensures forall j :: 1 <= j < |LogRunOf(args, chunks, fuel).events| ==>
      LogRunOf(args, chunks, fuel).events[j] == FollowEvent(chunks(j))
    ensures Completed !in LogRunOf(args, chunks, fuel).events
  {
    var c := chunks(0).value;
    FollowEventsInOrder(chunks, 1, c.textSize, fuel);
    var rest := Follow(chunks, 1, c.textSize, fuel);
    var r := LogRunOf(args, chunks, fuel);
    assert r.events == [Shown(c.text)] + rest.events;
    forall j | 1 <= j < |r.events|
      ensures r.events[j] == FollowEvent(chunks(j))
    {
      assert r.events[j] == rest.events[j - 1];
      assert rest.events[j - 1] == FollowEvent(chunks(1 + (j - 1)));
    }
    forall j | 0 <= j < |r.events|
      ensures r.events[j] != Completed
    {
    }
  }

  /** The whole log of a build that is already finished is printed after one request,
      followed by the completion message. */
  lemma FinishedBuildNeedsOneRequest(args: seq<string>, chunks: nat -> Result<LogChunk>, fuel: nat, reply: Result<LogReply>)
    requires |args| >= 2
    requires reply.Ok? && reply.value.moreDataHeader == "" && chunks(0) == GetTextLog(reply)
    ensures LogRunOf(args, chunks, fuel).starts == [None]
    ensures LogRunOf(args, chunks, fuel).events == [Shown(reply.value.body), Completed]
    ensures Screen(LogRunOf(args, chunks, fuel).events) == PrintLogLine(reply.value.body)
  {
    var r := LogRunOf(args, chunks, fuel);
    assert Screen(r.events[1..]) == [];
  }
}

=== FILE: root_command.dfy ===
/** cmd/root.go: the interactive build command. The user's prompt answers and the
    server's replies are inputs; the command's requests and pauses form the trace. */
module RootCommand {
  import opened GoStrings
  import opened JenkinsTypes
  import opened JenkinsApi

  // ---------------------------------------------------------------------------
  // Prompts (util/ui_select_util.go, StrUISelect)

  /** What the user did at a selection prompt. */
  datatype Pick = Cancelled | Picked(index: nat)

  /** StrUISelect: nothing to offer or a failed prompt gives ""; otherwise the item at
      the chosen index. An index the list does not have counts as a failed prompt. */
  function StrUISelect(items: seq<string>, pick: Pick): (r: string)
    ensures |items| == 0 || pick.Cancelled? ==> r == ""
    ensures pick.Picked? && pick.index < |items| ==> r == items[pick.index]
    ensures r != "" ==> r in items
  {
    if |items| == 0 then ""
    else match pick
      case Cancelled => ""
      case Picked(i) => if i < |items| then items[i] else ""
  }

  /** The names a prompt offers, one per item, in the order of the items. */
  function Names<T>(items: seq<T>, nameOf: T -> string): (r: seq<string>)
    ensures |r| == |items| && forall i :: 0 <= i < |items| ==> r[i] == nameOf(items[i])
  {
    if |items| == 0 then [] else [nameOf(items[0])] + Names(items[1..], nameOf)
  }

  function ViewNames(views: seq<View>): seq<string> {
    Names(views, (v: View) => v.name)
  }

  function JobNames(jobs: seq<Job>): seq<string> {
    Names(jobs, (j: Job) => j.name)
  }

  /** The jobs offered for a view: those of the first view carrying that name. */
  function JobsOfView(views: seq<View>, name: string): seq<string> {
    if |views| == 0 then []
    else if views[0].name == name then JobNames(views[0].jobs)
    else JobsOfView(views[1..], name)
  }

  lemma {:induction false} JobsOfViewFirstMatch(views: seq<View>, name: string, i: nat)
    requires i < |views| && views[i].name == name
    requires forall j :: 0 <= j < i ==> views[j].name != name
    ensures JobsOfView(views, name) == JobNames(views[i].jobs)
  {
    if i > 0 {
      JobsOfViewFirstMatch(views[1..], name, i - 1);
    }
  }

  lemma {:induction false} JobsOfViewNoMatch(views: seq<View>, name: string)
    requires forall j :: 0 <= j < |views| ==> views[j].name != name
    ensures JobsOfView(views, name) == []
  {
    if |views| > 0 {
      JobsOfViewNoMatch(views[1..], name);
    }
  }

  /** selectView: a prompt over every view name of the workspace. */
  function SelectView(ws: Workspace, pick: Pick): (r: string)
    ensures r != "" ==> exists i :: 0 <= i < |ws.views| && ws.views[i].name == r
    ensures |ws.views| == 0 || pick.Cancelled? ==> r == ""
    ensures pick.Picked? && pick.index < |ws.views| ==> r == ws.views[pick.index].name
  {
    StrUISelect(ViewNames(ws.views), pick)
  }

  /** selectJob: a prompt over the jobs of the first view named `view`. */
  function SelectJob(ws: Workspace, view: string, pick: Pick): (r: string)
    ensures r != "" ==> r in JobsOfView(ws.views, view)
    ensures pick.Cancelled? ==> r == ""
    ensures pick.Picked? && pick.index < |JobsOfView(ws.views, view)| ==>
      r == JobsOfView(ws.views, view)[pick.index]
  {
    StrUISelect(JobsOfView(ws.views, view), pick)
  }

  // ---------------------------------------------------------------------------
  // waitOperation and getBudilNumber

  /** waitOperation: a negative duration is raised to zero before sleeping; the pause
      is the least non-negative duration not shorter than the one asked for. */
  function WaitOperation(seconds: int): (e: Effect)
    ensures e.Sleep? && e.seconds >= seconds
    ensures e.seconds == 0 || e.seconds == seconds
  {
    Sleep(if seconds < 0 then 0 else seconds)
  }

  /** Outcome of getBudilNumber: the build number ("" when none was found), how many
      lookups this call made, and its trace. */
  datatype Poll = Poll(number: string, lookups: nat, effects: seq<Effect>)

  /** A lookup reply that ends the wait: an error or a build number. */
  predicate Decisive(reply: Result<string>) {
    reply != Ok("")
  }

  /** The number a deciding reply yields: an error yields "". */
  function NumberOf(reply: Result<string>): string {
    if reply.Ok? then reply.value else ""
  }

  /** `n` rounds of "look up, then wait 3 seconds". */
  function LookupRounds(queueId: string, n: nat): (r: seq<Effect>)
    ensures |r| == 2 * n
  {
    if n == 0 then [] else [Send(QueueLookup(queueId)), WaitOperation(3)] + LookupRounds(queueId, n - 1)
  }

  /** getBudilNumber(queueId, size): up to `size` lookups, 3 seconds apart, stopping at
      the first reply that is an error or a number. `lookup(made + j)` is the reply to
      the j-th lookup of this call. */
  function GetBuildNumberPoll(queueId: string, lookup: nat -> Result<Option<Int64>>, size: int, made: nat): (p: Poll)
    ensures size <= 0 ==> p == Poll("", 0, [])
    ensures size > 0 ==> 1 <= p.lookups <= size
    decreases if size < 0 then 0 else size
  {
    if size <= 0 then Poll("", 0, [])
    else
      var reply := GetBuildNumber(lookup(made));
      var ask := [Send(QueueLookup(queueId))];
      if reply.Err? then Poll("", 1, ask)
      else if reply.value != "" then Poll(reply.value, 1, ask)
      else
        var rest := GetBuildNumberPoll(queueId, lookup, size - 1, made + 1);
        Poll(rest.number, rest.lookups + 1, ask + [WaitOperation(3)] + rest.effects)
  }

  /** The reply to the last lookup a wait made. */
  function LastReply(queueId: string, lookup: nat -> Result<Option<Int64>>, size: int, made: nat): Result<string>
    requires size > 0
  {
    GetBuildNumber(lookup(made + GetBuildNumberPoll(queueId, lookup, size, made).lookups - 1))
  }

  /** Every reply before the last one said the item had no executable yet. */
  lemma {:induction false} PollWaitsOnlyOnEmpty(queueId: string, lookup: nat -> Result<Option<Int64>>, size: int, made: nat)
    requires size > 0
    ensures forall j :: made <= j < made + GetBuildNumberPoll(queueId, lookup, size, made).lookups - 1 ==>
      lookup(j) == Ok(None)
    decreases size
  {
    if GetBuildNumber(lookup(made)) == Ok("") && size > 1 {
      PollStep(queueId, lookup, size, made);
      PollWaitsOnlyOnEmpty(queueId, lookup, size - 1, made + 1);
    }
  }

  /** The wait stops before its bound only on a deciding reply, and that last reply
      gives the number. */
  lemma {:induction false} PollLastReplyDecides(queueId: string, lookup: nat -> Result<Option<Int64>>, size: int, made: nat)
    requires size > 0
    ensures GetBuildNumberPoll(queueId, lookup, size, made).lookups < size ==>
      Decisive(LastReply(queueId, lookup, size, made))
    ensures GetBuildNumberPoll(queueId, lookup, size, made).number == NumberOf(LastReply(queueId, lookup, size, made))
    decreases size
  {
    if GetBuildNumber(lookup(made)) == Ok("") && size > 1 {
      PollStep(queueId, lookup, size, made);
      PollLastReplyDecides(queueId, lookup, size - 1, made + 1);
      assert GetBuildNumberPoll(queueId, lookup, size, made).number ==
        GetBuildNumberPoll(queueId, lookup, size - 1, made + 1).number;
    }
  }

  /** One "still queued" round of the wait, unfolded. */
  lemma PollStep(queueId: string, lookup: nat -> Result<Option<Int64>>, size: int, made: nat)
    requires size > 1 && GetBuildNumber(lookup(made)) == Ok("")
    ensures GetBuildNumberPoll(queueId, lookup, size, made).lookups ==
      GetBuildNumberPoll(queueId, lookup, size - 1, made + 1).lookups + 1
    ensures GetBuildNumberPoll(queueId, lookup, size, made).effects ==
      [Send(QueueLookup(queueId)), Sleep(3)] + GetBuildNumberPoll(queueId, lookup, size - 1, made + 1).effects
    ensures LastReply(queueId, lookup, size, made) == LastReply(queueId, lookup, size - 1, made + 1)
  {
  }

  /** The last round of a wait: the lookup, and the pause after it only when that
      lookup came back empty too. */
  function FinalRound(queueId: string, last: Result<string>): seq<Effect> {
    if Decisive(last) then [Send(QueueLookup(queueId))] else [Send(QueueLookup(queueId)), Sleep(3)]
  }

  /** The trace alternates lookups and 3-second pauses, with a final pause only when
      every lookup came back empty. */
  lemma {:induction false} PollTrace(queueId: string, lookup: nat -> Result<Option<Int64>>, size: int, made: nat)
    requires size > 0
    ensures GetBuildNumberPoll(queueId, lookup, size, made).effects ==
      LookupRounds(queueId, GetBuildNumberPoll(queueId, lookup, size, made).lookups - 1)
      + FinalRound(queueId, LastReply(queueId, lookup, size, made))
    decreases size
  {
    if GetBuildNumber(lookup(made)) == Ok("") && size > 1 {
      PollStep(queueId, lookup, size, made);
      PollTrace(queueId, lookup, size - 1, made + 1);
      var n := GetBuildNumberPoll(queueId, lookup, size - 1, made + 1).lookups;
      var round := [Send(QueueLookup(queueId)), Sleep(3)];
      var last := FinalRound(queueId, LastReply(queueId, lookup, size, made));
      assert round + (LookupRounds(queueId, n - 1) + last) == (round + LookupRounds(queueId, n - 1)) + last;
    }
  }

  /** The wait never submits anything and never fetches a crumb. */
  lemma {:induction false} PollSendsNoPost(queueId: string, lookup: nat -> Result<Option<Int64>>, size: int, made: nat)
    ensures CountPosts(GetBuildNumberPoll(queueId, lookup, size, made).effects) == 0
    ensures CountCrumbFetches(GetBuildNumberPoll(queueId, lookup, size, made).effects) == 0
    decreases if size < 0 then 0 else size
  {
    if size > 0 {
      var reply := GetBuildNumber(lookup(made));
      var ask := [Send(QueueLookup(queueId))];
      if reply.Ok? && reply.value == "" {
        var rest := GetBuildNumberPoll(queueId, lookup, size - 1, made + 1);
        PollSendsNoPost(queueId, lookup, size - 1, made + 1);
        CountsDistribute(ask + [WaitOperation(3)], rest.effects);
        CountsDistribute(ask, [WaitOperation(3)]);
      }
    }
  }

  // ---------------------------------------------------------------------------
  // rootCmd.Run

  /** The two lists GetJobPararm returns. */
  datatype ParamLists = ParamLists(choices: seq<string>, branches: seq<string>)

  /** Everything rootCmd.Run reads: the workspace file, the four prompt answers and the
      server's replies (`lookup(k)` answers the k-th queue lookup). */
  datatype RunInputs = RunInputs(
    workspace: Result<Workspace>,
    viewPick: Pick, jobPick: Pick, choicePick: Pick, branchPick: Pick,
    params: Result<ParamLists>,
    crumb: Result<Crumb>, cfg: Result<JenkinsConfig>, post: Result<PostReply>,
    lookup: nat -> Result<Option<Int64>>,
    status: Result<BuildInfo>)

  datatype Outcome =
    | WorkspaceFailed(error: Error)
    | NoView
    | NoJob
    | ParamsFailed(error: Error)
    | SelectionIncomplete
    | SubmitFailed(error: Error)
    | StatusFailed(error: Error, buildNumber: string)
    | Reported(queueId: string, buildNumber: string, changes: seq<ChangeSet>)

  datatype RunResult = RunResult(outcome: Outcome, effects: seq<Effect>)

  function ChosenView(inp: RunInputs): string {
    if inp.workspace.Err? then "" else SelectView(inp.workspace.value, inp.viewPick)
  }

  function ChosenJob(inp: RunInputs): string {
    if inp.workspace.Err? then "" else SelectJob(inp.workspace.value, ChosenView(inp), inp.jobPick)
  }

  function ChosenChoice(inp: RunInputs): string {
    if inp.params.Err? then "" else StrUISelect(inp.params.value.choices, inp.choicePick)
  }

  function ChosenBranch(inp: RunInputs): string {
    if inp.params.Err? then "" else StrUISelect(inp.params.value.branches, inp.branchPick)
  }

  /** The guards before submission: a view, a job, the parameter lists and a branch.
      An empty choice does not block. */
  predicate SelectionComplete(inp: RunInputs) {
    inp.workspace.Ok? && ChosenView(inp) != "" && ChosenJob(inp) != ""
    && inp.params.Ok? && ChosenBranch(inp) != ""
  }

  function Submission(inp: RunInputs): Call<string> {
    BuildWithParameters(ChosenJob(inp), ChosenChoice(inp), ChosenBranch(inp), inp.crumb, inp.cfg, inp.post)
  }

  /** rootCmd.Run: select view, job, choice and branch; submit; wait 4 seconds; look
      the build number up at most 8 times; then fetch the build status, even when no
      build number was found. */
  function Run(inp: RunInputs): (r: RunResult)
    ensures inp.workspace.Err? ==> r == RunResult(WorkspaceFailed(inp.workspace.error), [])
    ensures !SelectionComplete(inp) ==> CountCrumbFetches(r.effects) == 0 && CountPosts(r.effects) == 0
    ensures r.outcome.StatusFailed? || r.outcome.Reported? <==> SelectionComplete(inp) && Submission(inp).result.Ok?
    ensures r.outcome.Reported? ==>
      r.outcome.queueId == Submission(inp).result.value && inp.status.Ok? && r.outcome.changes == inp.status.value.changeSets
    ensures inp.workspace.Ok? && !SelectionComplete(inp) ==>
      r.effects == (if ChosenView(inp) == "" || ChosenJob(inp) == "" then [] else [Send(JobParamsRequest(ChosenJob(inp)))])
    ensures SelectionComplete(inp) && Submission(inp).result.Err? ==>
      r == RunResult(SubmitFailed(Submission(inp).result.error), [Send(JobParamsRequest(ChosenJob(inp)))] + Submission(inp).effects)
    ensures SelectionComplete(inp) && Submission(inp).result.Ok? ==>
      var after := AfterSubmission(ChosenJob(inp), Submission(inp).result.value, inp.lookup, inp.status);
      r == RunResult(after.outcome, [Send(JobParamsRequest(ChosenJob(inp)))] + Submission(inp).effects + after.effects)
  {
    if inp.workspace.Err? then RunResult(WorkspaceFailed(inp.workspace.error), [])
    else if ChosenView(inp) == "" then RunResult(NoView, [])
    else if ChosenJob(inp) == "" then RunResult(NoJob, [])
    else
      var job := ChosenJob(inp);
      var ask := [Send(JobParamsRequest(job))];
      if inp.params.Err? then RunResult(ParamsFailed(inp.params.error), ask)
      else if ChosenView(inp) == "" || job == "" || ChosenBranch(inp) == "" then RunResult(SelectionIncomplete, ask)
      else
        var submit := Submission(inp);
        var sent := ask + submit.effects;
        if submit.result.Err? then RunResult(SubmitFailed(submit.result.error), sent)
        else
          var after := AfterSubmission(job, submit.result.value, inp.lookup, inp.status);
          RunResult(after.outcome, sent + after.effects)
  }

  /** What follows an accepted submission: wait 4 seconds, look the build number up at
      most 8 times, fetch the build status. */
  function AfterSubmission(job: string, queueId: string, lookup: nat -> Result<Option<Int64>>, status: Result<BuildInfo>)
    : (r: RunResult)
    ensures r.outcome.StatusFailed? || r.outcome.Reported?
    ensures r.outcome.Reported? <==> status.Ok?
    ensures r.outcome.Reported? ==> r.outcome.queueId == queueId && r.outcome.changes == status.value.changeSets
    ensures r.outcome.buildNumber == GetBuildNumberPoll(queueId, lookup, 8, 0).number
    ensures |r.effects| >= 2 && r.effects[0] == Sleep(4)
    ensures r.effects[1..|r.effects| - 1] == GetBuildNumberPoll(queueId, lookup, 8, 0).effects
    ensures r.effects[|r.effects| - 1] == Send(BuildStatusRequest(job, r.outcome.buildNumber))
  {
    var poll := GetBuildNumberPoll(queueId, lookup, 8, 0);
    var effects := [WaitOperation(4)] + poll.effects + [Send(BuildStatusRequest(job, poll.number))];
    match status
    case Err(e) => RunResult(StatusFailed(e, poll.number), effects)
    case Ok(info) => RunResult(Reported(queueId, poll.number, info.changeSets), effects)
  }

  lemma AfterSubmissionSendsNoPost(job: string, queueId: string, lookup: nat -> Result<Option<Int64>>, status: Result<BuildInfo>)
    ensures CountPosts(AfterSubmission(job, queueId, lookup, status).effects) == 0
    ensures CountCrumbFetches(AfterSubmission(job, queueId, lookup, status).effects) == 0
  {
    var poll := GetBuildNumberPoll(queueId, lookup, 8, 0);
    var tail := [Send(BuildStatusRequest(job, poll.number))];
    PollSendsNoPost(queueId, lookup, 8, 0);
    CountsDistribute([WaitOperation(4)], poll.effects);
    CountsDistribute([WaitOperation(4)] + poll.effects, tail);
  }

  lemma SubmissionCounts(inp: RunInputs)
    ensures CountCrumbFetches(Submission(inp).effects) == 1
    ensures CountPosts(Submission(inp).effects) == if PostSent(inp.crumb, inp.cfg) then 1 else 0
  {
    var post := if PostSent(inp.crumb, inp.cfg) then [Send(BuildPost(ChosenJob(inp), ChosenBranch(inp), ChosenChoice(inp)))] else [];
    CountsDistribute([Send(CrumbRequest)], post);
  }

  /** A crumb is fetched exactly when the selection is complete, and the form is posted
      at most once, exactly when the crumb is usable and the configuration loads; the
      post carries the selected job, branch and choice. */
  lemma SubmissionNeedsCompleteSelection(inp: RunInputs)
    ensures CountCrumbFetches(Run(inp).effects) == (if SelectionComplete(inp) then 1 else 0)
    ensures CountPosts(Run(inp).effects) ==
      (if SelectionComplete(inp) && PostSent(inp.crumb, inp.cfg) then 1 else 0)
    ensures SelectionComplete(inp) && PostSent(inp.crumb, inp.cfg) ==>
      Send(BuildPost(ChosenJob(inp), ChosenBranch(inp), ChosenChoice(inp))) in Run(inp).effects
  {
    if SelectionComplete(inp) {
      var job := ChosenJob(inp);
      var ask := [Send(JobParamsRequest(job))];
      var submit := Submission(inp);
      SubmissionCounts(inp);
      CountsDistribute(ask, submit.effects);
      if submit.result.Ok? {
        var after := AfterSubmission(job, submit.result.value, inp.lookup, inp.status);
        AfterSubmissionSendsNoPost(job, submit.result.value, inp.lookup, inp.status);
        CountsDistribute(ask + submit.effects, after.effects);
      }
      if PostSent(inp.crumb, inp.cfg) {
        assert Run(inp).effects[2] == Send(BuildPost(job, ChosenBranch(inp), ChosenChoice(inp)));
      }
    }
  }

  /** A build still waiting in the queue does not abort the command: after 8 empty
      lookups it fetches the status of build "" and reports what comes back. */
  lemma StillQueuedStillFetchesStatus(inp: RunInputs)
    requires SelectionComplete(inp) && Submission(inp).result.Ok?
    requires forall k :: inp.lookup(k) == Ok(None)
    ensures |Run(inp).effects| >= 1
    ensures Run(inp).effects[|Run(inp).effects| - 1] == Send(BuildStatusRequest(ChosenJob(inp), ""))
    ensures Run(inp).outcome == (if inp.status.Ok? then Reported(Submission(inp).result.value, "", inp.status.value.changeSets)
                                 else StatusFailed(inp.status.error, ""))
  {
    var queueId := Submission(inp).result.value;
    PollLastReplyDecides(queueId, inp.lookup, 8, 0);
    PollWaitsOnlyOnEmpty(queueId, inp.lookup, 8, 0);
    assert GetBuildNumberPoll(queueId, inp.lookup, 8, 0).number == "";
  }
}

=== FILE: stage_aggregation.dfy ===
/** GetPipelineConfig in api/jenkins_api.go: the stages of every run of a job,
    flattened run by run and deduplicated by stage id, the first occurrence winning. */
module Pipeline {
  import opened JenkinsTypes

  /** The record GetPipelineConfig builds from one stage of the runs list: it copies
      id, name, status and the two timings, and never pauseDurationMillis. */
  function Extract(raw: Stage): (s: Stage)
    ensures s.id == raw.id && s.name == raw.name && s.status == raw.status
    ensures s.startTimeMillis == raw.startTimeMillis && s.durationMillis == raw.durationMillis
    ensures s.pauseDurationMillis == 0
  {
    raw.(pauseDurationMillis := 0)
  }

  function ExtractAll(stages: seq<Stage>): (r: seq<Stage>)
    ensures |r| == |stages|
    ensures forall i :: 0 <= i < |stages| ==> r[i] == Extract(stages[i])
  {
    seq(|stages|, i requires 0 <= i < |stages| => Extract(stages[i]))
  }

  /** All runs' stages in visiting order: runs first, then stages within a run. */
  function Flatten(runs: seq<seq<Stage>>): seq<Stage>
    decreases |runs|
  {
    if |runs| == 0 then [] else Flatten(runs[..|runs| - 1]) + ExtractAll(runs[|runs| - 1])
  }

  /** The ids of a stage list, in order (the `configIds` slice). */
  function Ids(stages: seq<Stage>): (r: seq<string>)
    ensures |r| == |stages|
    ensures forall i :: 0 <= i < |stages| ==> r[i] == stages[i].id
  {
    seq(|stages|, i requires 0 <= i < |stages| => stages[i].id)
  }

  /** The loop of GetPipelineConfig after visiting `xs`: a stage is appended unless
      its id is already among the kept ids. */
  function Dedup(xs: seq<Stage>): seq<Stage>
    decreases |xs|
  {
    if |xs| == 0 then []
    else
      var kept := Dedup(xs[..|xs| - 1]);
      var s := xs[|xs| - 1];
      if s.id in Ids(kept) then kept else kept + [s]
  }

  /** One more stage through the loop. */
  lemma DedupSnoc(xs: seq<Stage>, x: Stage)
    ensures Dedup(xs + [x]) == if x.id in Ids(Dedup(xs)) then Dedup(xs) else Dedup(xs) + [x]
  {
    assert (xs + [x])[..|xs|] == xs;
  }

  /** One more stage through the inner loop. */
  lemma ExtractAllSnoc(before: seq<Stage>, stages: seq<Stage>, j: nat)
    requires j < |stages|
    ensures before + ExtractAll(stages[..j + 1]) == before + ExtractAll(stages[..j]) + [Extract(stages[j])]
  {
    assert ExtractAll(stages[..j + 1]) == ExtractAll(stages[..j]) + [Extract(stages[j])];
  }

  lemma IdsSnoc(stages: seq<Stage>, x: Stage)
    ensures Ids(stages + [x]) == Ids(stages) + [x.id]
  {
  }

  /** One more run through the outer loop. */
  lemma FlattenSnoc(runs: seq<seq<Stage>>, i: nat)
    requires i < |runs|
    ensures Flatten(runs[..i + 1]) == Flatten(runs[..i]) + ExtractAll(runs[i])
  {
    assert runs[..i + 1][..i] == runs[..i];
  }

  /** The stages of all runs, deduplicated by id. */
  function AggregateStages(runs: seq<seq<Stage>>): seq<Stage> {
    Dedup(Flatten(runs))
  }

  // ---------------------------------------------------------------------------
  // Reference definition: keep exactly the first occurrence of every id.

  /** Index of the first stage with this id, or |xs| when there is none. */
  function FirstIndex(xs: seq<Stage>, id: string): (r: nat)
    ensures r <= |xs|
    ensures r < |xs| ==> xs[r].id == id
    ensures forall j :: 0 <= j < r ==> xs[j].id != id
    decreases |xs|
  {
    if |xs| == 0 then 0 else if xs[0].id == id then 0 else 1 + FirstIndex(xs[1..], id)
  }

  /** xs[i] for every i < n that is the first index of its id, in index order. */
  function FirstOccurrences(xs: seq<Stage>, n: nat): seq<Stage>
    requires n <= |xs|
    decreases n
  {
    if n == 0 then []
    else FirstOccurrences(xs, n - 1) + (if FirstIndex(xs, xs[n - 1].id) == n - 1 then [xs[n - 1]] else [])
  }

  predicate DistinctIds(stages: seq<Stage>) {
    forall i, j :: 0 <= i < j < |stages| ==> stages[i].id != stages[j].id
  }

  /** The ids kept are exactly the ids seen. */
  lemma {:induction false} DedupIds(xs: seq<Stage>)
    ensures forall id :: id in Ids(Dedup(xs)) <==> id in Ids(xs)
    decreases |xs|
  {
    if |xs| > 0 {
      var p := xs[..|xs| - 1];
      DedupIds(p);
      assert Ids(xs) == Ids(p) + [xs[|xs| - 1].id];
      var kept := Dedup(p);
      if xs[|xs| - 1].id !in Ids(kept) {
        assert Ids(kept + [xs[|xs| - 1]]) == Ids(kept) + [xs[|xs| - 1].id];
      }
    }
  }

  /** The last element of a prefix starts its id exactly when the id is new. */
  lemma FirstIndexOfLast(xs: seq<Stage>, n: nat)
    requires 0 < n <= |xs|
    ensures FirstIndex(xs, xs[n - 1].id) == n - 1 <==> xs[n - 1].id !in Ids(xs[..n - 1])
  {
    var id := xs[n - 1].id;
    var k := FirstIndex(xs, id);
    if k < n - 1 {
      assert Ids(xs[..n - 1])[k] == id;
    }
    if id in Ids(xs[..n - 1]) {
      var j :| 0 <= j < n - 1 && Ids(xs[..n - 1])[j] == id;
      assert xs[j].id == id;
    }
  }

  /** The loop's membership test against the kept ids selects exactly the first
      occurrences: the loop and the reference definition agree on every prefix. */
  lemma {:induction false} DedupIsFirstOccurrences(xs: seq<Stage>, n: nat)
    requires n <= |xs|
    ensures Dedup(xs[..n]) == FirstOccurrences(xs, n)
    decreases n
  {
    if n == 0 {
      assert xs[..0] == [];
    } else {
      DedupIsFirstOccurrences(xs, n - 1);
      var p := xs[..n];
      assert p[..|p| - 1] == xs[..n - 1];
      assert p[|p| - 1] == xs[n - 1];
      DedupIds(xs[..n - 1]);
      FirstIndexOfLast(xs, n);
    }
  }

  /** Each stage the reference definition keeps is the first one with its id. */
  lemma {:induction false} FirstOccurrencesAreFirst(xs: seq<Stage>, n: nat)
    requires n <= |xs|
    ensures forall k :: 0 <= k < |FirstOccurrences(xs, n)| ==> FirstIndex(xs, FirstOccurrences(xs, n)[k].id) < n
    ensures forall k :: 0 <= k < |FirstOccurrences(xs, n)| ==>
      FirstOccurrences(xs, n)[k] == xs[FirstIndex(xs, FirstOccurrences(xs, n)[k].id)]
    decreases n
  {
    if n > 0 {
      FirstOccurrencesAreFirst(xs, n - 1);
      var prev := FirstOccurrences(xs, n - 1);
      var r := FirstOccurrences(xs, n);
      var x := xs[n - 1];
      if FirstIndex(xs, x.id) == n - 1 {
        assert r == prev + [x];
        forall k | 0 <= k < |r|
          ensures FirstIndex(xs, r[k].id) < n && r[k] == xs[FirstIndex(xs, r[k].id)]
        {
          if k < |prev| {
            assert r[k] == prev[k];
          }
        }
      } else {
        assert r == prev;
      }
    }
  }

  /** The reference definition lists kept stages in order of first appearance. */
  lemma {:induction false} FirstOccurrencesOrdered(xs: seq<Stage>, n: nat)
    requires n <= |xs|
    ensures forall k, l :: 0 <= k < l < |FirstOccurrences(xs, n)| ==>
      FirstIndex(xs, FirstOccurrences(xs, n)[k].id) < FirstIndex(xs, FirstOccurrences(xs, n)[l].id)
    decreases n
  {
    if n > 0 {
      FirstOccurrencesOrdered(xs, n - 1);
      FirstOccurrencesAreFirst(xs, n - 1);
      var prev := FirstOccurrences(xs, n - 1);
      var r := FirstOccurrences(xs, n);
      var x := xs[n - 1];
      if FirstIndex(xs, x.id) == n - 1 {
        assert r == prev + [x];
        forall k, l | 0 <= k < l < |r|
          ensures FirstIndex(xs, r[k].id) < FirstIndex(xs, r[l].id)
        {
          assert r[k] == prev[k];
          if l < |prev| {
            assert r[l] == prev[l];
          }
        }
      } else {
        assert r == prev;
      }
    }
  }

  /** The reference definition keeps every id of the prefix. */
  lemma {:induction false} FirstOccurrencesCover(xs: seq<Stage>, n: nat)
    requires n <= |xs|
    ensures forall i :: 0 <= i < n ==> xs[i].id in Ids(FirstOccurrences(xs, n))
    decreases n
  {
    if n > 0 {
      FirstOccurrencesCover(xs, n - 1);
      var prev := FirstOccurrences(xs, n - 1);
      var r := FirstOccurrences(xs, n);
      var x := xs[n - 1];
      var k := FirstIndex(xs, x.id);
      assert r == prev + (if k == n - 1 then [x] else []);
      assert forall id :: id in Ids(prev) ==> id in Ids(r) by {
        assert Ids(r) == Ids(prev) + (if k == n - 1 then [x.id] else []);
      }
      if k == n - 1 {
        assert Ids(r)[|prev|] == x.id;
      } else {
        assert xs[k].id in Ids(prev);
      }
    }
  }

  /** First-index order on distinct first indices forces distinct ids. */
  lemma OrderedImpliesDistinct(xs: seq<Stage>, r: seq<Stage>)
    requires forall k, l :: 0 <= k < l < |r| ==> FirstIndex(xs, r[k].id) < FirstIndex(xs, r[l].id)
    ensures DistinctIds(r)
  {
  }

  /** Stage aggregation: the result has pairwise-distinct ids; each kept stage is the
      first stage of the flattened runs with its id (so later duplicates are skipped
      with all their fields); every id of every run is kept; and kept stages are in
      order of first appearance. */
  lemma AggregateStagesSpec(runs: seq<seq<Stage>>)
    ensures DistinctIds(AggregateStages(runs))
    ensures forall k :: 0 <= k < |AggregateStages(runs)| ==>
      FirstIndex(Flatten(runs), AggregateStages(runs)[k].id) < |Flatten(runs)|
    ensures forall k :: 0 <= k < |AggregateStages(runs)| ==>
      AggregateStages(runs)[k] == Flatten(runs)[FirstIndex(Flatten(runs), AggregateStages(runs)[k].id)]
    ensures forall i :: 0 <= i < |Flatten(runs)| ==> Flatten(runs)[i].id in Ids(AggregateStages(runs))
    ensures forall k, l :: 0 <= k < l < |AggregateStages(runs)| ==>
      FirstIndex(Flatten(runs), AggregateStages(runs)[k].id) < FirstIndex(Flatten(runs), AggregateStages(runs)[l].id)
  {
    var xs := Flatten(runs);
    assert xs[..|xs|] == xs;
    DedupIsFirstOccurrences(xs, |xs|);
    FirstOccurrencesAreFirst(xs, |xs|);
    FirstOccurrencesOrdered(xs, |xs|);
    FirstOccurrencesCover(xs, |xs|);
    OrderedImpliesDistinct(xs, AggregateStages(runs));
  }

  /** Two runs sharing an id yield one entry carrying the first run's attributes. */
  lemma SharedIdKeepsFirstRun(a: Stage, b: Stage)
    requires a.id == b.id
    ensures AggregateStages([[a], [b]]) == [Extract(a)]
  {
    var runs := [[a], [b]];
    var ea, eb := Extract(a), Extract(b);
    assert runs[..0] == [] && runs[..1] == [[a]] && runs[..2] == runs;
    FlattenSnoc(runs, 0);
    FlattenSnoc(runs, 1);
    assert ExtractAll([a]) == [ea] && ExtractAll([b]) == [eb];
    assert Flatten(runs) == [ea] + [eb];
    DedupSnoc([], ea);
    assert [] + [ea] == [ea];
    DedupSnoc([ea], eb);
  }

  /** GetPipelineConfig as written: two nested loops over the runs reply, a linear
      membership test on the collected ids, and the request error passed through. */
  method GetPipelineConfig(reply: Result<seq<seq<Stage>>>) returns (r: Result<seq<Stage>>)
    ensures reply.Err? ==> r == Err(reply.error)
    ensures reply.Ok? ==> r == Ok(AggregateStages(reply.value))
  {
    if reply.Err? {
      return Err(reply.error);
    }
    var runs := reply.value;
    var configStages: seq<Stage> := [];
    var configIds: seq<string> := [];
    var i := 0;
    while i < |runs|
      invariant 0 <= i <= |runs|
      invariant configStages == Dedup(Flatten(runs[..i]))
      invariant configIds == Ids(configStages)
    {
      var stages := runs[i];
      ghost var before := Flatten(runs[..i]);
      var j := 0;
      assert before + ExtractAll(stages[..0]) == before;
      while j < |stages|
        invariant 0 <= j <= |stages|
        invariant configStages == Dedup(before + ExtractAll(stages[..j]))
        invariant configIds == Ids(configStages)
      {
        var current := Extract(stages[j]);
        ghost var seen := before + ExtractAll(stages[..j]);
        ExtractAllSnoc(before, stages, j);
        DedupSnoc(seen, current);
        if current.id !in configIds {
          IdsSnoc(configStages, current);
          configIds := configIds + [current.id];
          configStages := configStages + [current];
        }
        j := j + 1;
      }
      assert stages[..j] == stages;
      FlattenSnoc(runs, i);
      i := i + 1;
    }
    assert runs[..i] == runs;
    return Ok(configStages);
  }
}

=== FILE: stages_command.dfy ===
/** cmd/stages.go: print a build's status, then walk the job's stages in pipeline order
    and, for each, poll the live run description until that stage (or the whole run)
    has succeeded. `live(k)` is the reply to the k-th polling describe call. The loop
    in the source has no bound; `budget` caps the number of polling calls and a result
    of None means the budget ran out. */
module StagesCommand {
  import opened GoStrings
  import opened JenkinsTypes
  import Pipeline

  /** GetWFDescribe's value as the polling loop uses it: the error is discarded and
      Go's zero description stands in. */
  function DescribeOrZero(reply: Result<WFDescribe>): (d: WFDescribe)
    ensures reply.Ok? ==> d == reply.value
    ensures reply.Err? ==> d.status == "" && d.stages == []
  {
    if reply.Ok? then reply.value else ZeroDescribe
  }

  /** The first entry of a live description that is the stage `id` and has succeeded. */
  function FirstSucceeded(stages: seq<Stage>, id: string): (r: Option<Stage>)
    ensures r.Some? ==> r.value in stages && r.value.id == id && r.value.status == "SUCCESS"
    ensures r.None? <==> forall i :: 0 <= i < |stages| ==> !(stages[i].id == id && stages[i].status == "SUCCESS")
  {
    if |stages| == 0 then None
    else if stages[0].id == id && stages[0].status == "SUCCESS" then Some(stages[0])
    else FirstSucceeded(stages[1..], id)
  }

  /** How a stage came to be ticked off. */
  datatype How =
    | RunSucceeded
    | StageSucceeded(call: nat, seconds: int)

  /** One ticked line: the stage's position in the list, its name, and why. */
  datatype Confirmation = Confirmation(index: nat, name: string, how: How)

  /** The loop's state between stages: the `complate` flag and the number of polling
      calls made so far. */
  datatype PollState = PollState(complete: bool, calls: nat)

  /** The evidence that ends the wait for `stage` at one describe: the whole run
      succeeded, or the stage did. */
  predicate Evidence(d: WFDescribe, stage: Stage) {
    d.status == "SUCCESS" || FirstSucceeded(d.stages, stage.id).Some?
  }

  /** The inner `Loop:` for one stage. Once the run is known to have succeeded no call
      is made; otherwise describe again until there is evidence. */
  function PollStage(live: nat -> Result<WFDescribe>, index: nat, stage: Stage, st: PollState, budget: nat)
    : (r: Option<(Confirmation, PollState)>)
    ensures st.complete ==> r == Some((Confirmation(index, stage.name, RunSucceeded), st))
    ensures r.Some? ==> r.value.0.index == index && r.value.0.name == stage.name
    ensures r.Some? ==> st.calls <= r.value.1.calls && (st.complete ==> r.value.1.complete)
    ensures r.Some? && r.value.0.how.RunSucceeded? ==> r.value.1.complete
    ensures r.Some? && r.value.0.how.StageSucceeded? ==>
      var c := r.value.0.how.call;
      st.calls <= c && r.value.1 == PollState(false, c + 1)
      && DescribeOrZero(live(c)).status != "SUCCESS"
      && FirstSucceeded(DescribeOrZero(live(c)).stages, stage.id).Some?
      && r.value.0.how.seconds == TruncDiv(FirstSucceeded(DescribeOrZero(live(c)).stages, stage.id).value.durationMillis, 1000)
    ensures r.Some? && !st.complete && r.value.0.how.RunSucceeded? ==>
      st.calls < r.value.1.calls && DescribeOrZero(live(r.value.1.calls - 1)).status == "SUCCESS"
    decreases if st.calls <= budget then budget - st.calls else 0
  {
    if st.complete then Some((Confirmation(index, stage.name, RunSucceeded), st))
    else if st.calls >= budget then None
    else
      var d := DescribeOrZero(live(st.calls));
      var next := st.calls + 1;
      if d.status == "SUCCESS" then Some((Confirmation(index, stage.name, RunSucceeded), PollState(true, next)))
      else match FirstSucceeded(d.stages, stage.id)
        case Some(s) =>
          Some((Confirmation(index, stage.name, StageSucceeded(st.calls, TruncDiv(s.durationMillis, 1000))), PollState(false, next)))
        case None => PollStage(live, index, stage, PollState(false, next), budget)
  }

  /** Every describe the loop made for a stage before the last one showed no evidence. */
  lemma {:induction false} PollStageWaitsForEvidence(
    live: nat -> Result<WFDescribe>, index: nat, stage: Stage, st: PollState, budget: nat)
    requires PollStage(live, index, stage, st, budget).Some?
    ensures forall c :: st.calls <= c < PollStage(live, index, stage, st, budget).value.1.calls - 1 ==>
      !Evidence(DescribeOrZero(live(c)), stage)
    decreases if st.calls <= budget then budget - st.calls else 0
  {
    if !st.complete {
      var d := DescribeOrZero(live(st.calls));
      if !Evidence(d, stage) {
        PollStageWaitsForEvidence(live, index, stage, PollState(false, st.calls + 1), budget);
      }
    }
  }

  /** The converse: a wait that runs out of budget saw no evidence at any describe call
      it made, so it did not give up on a describe that would have ended it. */
  lemma {:induction false} PollStageNoneMeansNoEvidence(
    live: nat -> Result<WFDescribe>, index: nat, stage: Stage, st: PollState, budget: nat)
    requires PollStage(live, index, stage, st, budget).None?
    ensures !st.complete
    ensures forall c :: st.calls <= c < budget ==> !Evidence(DescribeOrZero(live(c)), stage)
    decreases if st.calls <= budget then budget - st.calls else 0
  {
    if st.calls < budget {
      PollStageNoneMeansNoEvidence(live, index, stage, PollState(false, st.calls + 1), budget);
    }
  }

  /** A larger budget changes nothing about a wait that finished. */
  lemma {:induction false} PollStageBudgetMonotone(
    live: nat -> Result<WFDescribe>, index: nat, stage: Stage, st: PollState, budget: nat, more: nat)
    requires budget <= more
    requires PollStage(live, index, stage, st, budget).Some?
    ensures PollStage(live, index, stage, st, more) == PollStage(live, index, stage, st, budget)
    decreases if st.calls <= budget then budget - st.calls else 0
  {
    if !st.complete {
      var d := DescribeOrZero(live(st.calls));
      if !Evidence(d, stage) {
        PollStageBudgetMonotone(live, index, stage, PollState(false, st.calls + 1), budget, more);
      }
    }
  }

  /** The confirmations of stages[from..] and the state after the last. */
  datatype Progress = Progress(confirmations: seq<Confirmation>, state: PollState)

  /** The outer `for index, stage := range pipelineInfo.Stages`: one confirmation per
      stage, in the declared order, each exactly once. */
  function PollAll(live: nat -> Result<WFDescribe>, stages: seq<Stage>, from: nat, st: PollState, budget: nat)
    : (r: Option<Progress>)
    requires from <= |stages|
    ensures r.Some? ==> |r.value.confirmations| == |stages| - from
    ensures r.Some? ==> forall i :: 0 <= i < |r.value.confirmations| ==>
      r.value.confirmations[i].index == from + i && r.value.confirmations[i].name == stages[from + i].name
    ensures r.Some? ==> st.calls <= r.value.state.calls
    decreases |stages| - from
  {
    if from == |stages| then Some(Progress([], st))
    else
      var first := PollStage(live, from, stages[from], st, budget);
      if first.None? then None
      else
        var rest := PollAll(live, stages, from + 1, first.value.1, budget);
        if rest.None? then None
        else Some(Progress([first.value.0] + rest.value.confirmations, rest.value.state))
  }

  /** Once the run is known to have succeeded, every remaining stage is ticked off at
      once and no further describe call is made. */
  lemma {:induction false} CompleteIsSticky(
    live: nat -> Result<WFDescribe>, stages: seq<Stage>, from: nat, st: PollState, budget: nat)
    requires from <= |stages| && st.complete
    ensures PollAll(live, stages, from, st, budget).Some?
    ensures PollAll(live, stages, from, st, budget).value.state == st
    ensures forall i :: 0 <= i < |stages| - from ==>
      PollAll(live, stages, from, st, budget).value.confirmations[i].how == RunSucceeded
    decreases |stages| - from
  {
    if from < |stages| {
      CompleteIsSticky(live, stages, from + 1, st, budget);
      var rest := PollAll(live, stages, from + 1, st, budget).value;
      var r := PollAll(live, stages, from, st, budget).value;
      assert r.confirmations == [Confirmation(from, stages[from].name, RunSucceeded)] + rest.confirmations;
    }
  }

  /** A stage confirmed from the live description was found there, under its own id,
      with status SUCCESS, at the call the confirmation names. */
  lemma {:induction false} StageConfirmationsAreSound(
    live: nat -> Result<WFDescribe>, stages: seq<Stage>, from: nat, st: PollState, budget: nat, i: nat)
    requires from <= |stages|
    requires PollAll(live, stages, from, st, budget).Some?
    requires i < |stages| - from
    requires PollAll(live, stages, from, st, budget).value.confirmations[i].how.StageSucceeded?
    ensures FirstSucceeded(
      DescribeOrZero(live(PollAll(live, stages, from, st, budget).value.confirmations[i].how.call)).stages,
      stages[from + i].id).Some?
    decreases |stages| - from
  {
    var first := PollStage(live, from, stages[from], st, budget).value;
    if i > 0 {
      StageConfirmationsAreSound(live, stages, from + 1, first.1, budget, i - 1);
    }
  }

  lemma PollAllUnfold(live: nat -> Result<WFDescribe>, stages: seq<Stage>, from: nat, st: PollState, budget: nat)
    requires from < |stages|
    requires PollStage(live, from, stages[from], st, budget).Some?
    ensures PollAll(live, stages, from, st, budget) ==
      var first := PollStage(live, from, stages[from], st, budget).value;
      var rest := PollAll(live, stages, from + 1, first.1, budget);
      if rest.None? then None else Some(Progress([first.0] + rest.value.confirmations, rest.value.state))
  {
  }

  /** The walk from `from` reaches stage `i` with every stage before it ticked off, and
      the wait for stage `i` runs out of budget. */
  predicate RanOutAt(live: nat -> Result<WFDescribe>, stages: seq<Stage>, from: nat, st: PollState, budget: nat, i: nat)
    requires from <= i < |stages|
  {
    PollAll(live, stages[..i], from, st, budget).Some?
    && PollStage(live, i, stages[i], PollAll(live, stages[..i], from, st, budget).value.state, budget).None?
  }

  /** Running out at stage `i` after the first stage carries over to the walk that
      includes the first stage. */
  lemma RanOutAtStep(
    live: nat -> Result<WFDescribe>, stages: seq<Stage>, from: nat, st: PollState, budget: nat, i: nat)
    requires from < i < |stages|
    requires PollStage(live, from, stages[from], st, budget).Some?
    requires RanOutAt(live, stages, from + 1, PollStage(live, from, stages[from], st, budget).value.1, budget, i)
    ensures RanOutAt(live, stages, from, st, budget, i)
  {
    assert stages[..i][from] == stages[from];
    PollAllUnfold(live, stages[..i], from, st, budget);
  }

  /** A walk that gives up ran out of budget on some stage: every stage before it was
      ticked off, and the wait for that stage, from the state they left, ran out. */
  lemma {:induction false} PollAllNoneMeansBudgetRanOut(
    live: nat -> Result<WFDescribe>, stages: seq<Stage>, from: nat, st: PollState, budget: nat)
    requires from <= |stages|
    requires PollAll(live, stages, from, st, budget).None?
    ensures exists i :: from <= i < |stages| && RanOutAt(live, stages, from, st, budget, i)
    decreases |stages| - from
  {
    var first := PollStage(live, from, stages[from], st, budget);
    if first.None? {
      assert PollAll(live, stages[..from], from, st, budget) == Some(Progress([], st));
      assert RanOutAt(live, stages, from, st, budget, from);
    } else {
      PollAllUnfold(live, stages, from, st, budget);
      PollAllNoneMeansBudgetRanOut(live, stages, from + 1, first.value.1, budget);
      var i :| from + 1 <= i < |stages| && RanOutAt(live, stages, from + 1, first.value.1, budget, i);
      RanOutAtStep(live, stages, from, st, budget, i);
    }
  }

  /** A larger budget changes nothing about a walk that finished. */
  lemma {:induction false} PollAllBudgetMonotone(
    live: nat -> Result<WFDescribe>, stages: seq<Stage>, from: nat, st: PollState, budget: nat, more: nat)
    requires from <= |stages| && budget <= more
    requires PollAll(live, stages, from, st, budget).Some?
    ensures PollAll(live, stages, from, st, more) == PollAll(live, stages, from, st, budget)
    decreases |stages| - from
  {
    if from < |stages| {
      PollStageBudgetMonotone(live, from, stages[from], st, budget, more);
      var first := PollStage(live, from, stages[from], st, budget).value;
      assert PollAll(live, stages, from + 1, first.1, budget).Some?;
      PollAllBudgetMonotone(live, stages, from + 1, first.1, budget, more);
      PollAllUnfold(live, stages, from, st, budget);
      PollAllUnfold(live, stages, from, st, more);
    }
  }

  /** A run that never succeeds while being watched is never left: if no describe
      reports SUCCESS (the run failed, was aborted, is still in progress, or the describe
      failed) and none lists the stage as succeeded, the wait for that stage does not
      finish within any budget. */
  lemma {:induction false} UnsuccessfulRunIsWatchedForever(
    live: nat -> Result<WFDescribe>, stage: Stage, index: nat, st: PollState, budget: nat)
    requires !st.complete
    requires forall k :: DescribeOrZero(live(k)).status != "SUCCESS"
    requires forall k :: FirstSucceeded(DescribeOrZero(live(k)).stages, stage.id).None?
    ensures PollStage(live, index, stage, st, budget).None?
    decreases if st.calls <= budget then budget - st.calls else 0
  {
    if st.calls < budget {
      UnsuccessfulRunIsWatchedForever(live, stage, index, PollState(false, st.calls + 1), budget);
    }
  }

  /** The `complate` flag is backed by evidence: it is set only after some describe call
      made so far reported the whole run as SUCCESS. */
  predicate CompleteBacked(live: nat -> Result<WFDescribe>, st: PollState) {
    st.complete ==> exists c: nat :: c < st.calls && DescribeOrZero(live(c)).status == "SUCCESS"
  }

  /** Waiting for one stage keeps the flag backed. */
  lemma PollStageKeepsBacking(live: nat -> Result<WFDescribe>, index: nat, stage: Stage, st: PollState, budget: nat)
    requires CompleteBacked(live, st)
    requires PollStage(live, index, stage, st, budget).Some?
    ensures CompleteBacked(live, PollStage(live, index, stage, st, budget).value.1)
  {
    var r := PollStage(live, index, stage, st, budget).value;
    if !st.complete && r.1.complete {
      var c: nat := r.1.calls - 1;
      assert c < r.1.calls && DescribeOrZero(live(c)).status == "SUCCESS";
    }
  }

  /** A stage ticked because the run succeeded is backed by a describe call of the walk
      that reported the whole run as SUCCESS. */
  lemma {:induction false} RunConfirmationsAreSound(
    live: nat -> Result<WFDescribe>, stages: seq<Stage>, from: nat, st: PollState, budget: nat, i: nat)
    requires from <= |stages| && CompleteBacked(live, st)
    requires PollAll(live, stages, from, st, budget).Some?
    requires i < |stages| - from
    requires PollAll(live, stages, from, st, budget).value.confirmations[i].how.RunSucceeded?
    ensures exists c: nat ::
      c < PollAll(live, stages, from, st, budget).value.state.calls && DescribeOrZero(live(c)).status == "SUCCESS"
    decreases |stages| - from
  {
    var first := PollStage(live, from, stages[from], st, budget).value;
    PollStageKeepsBacking(live, from, stages[from], st, budget);
    PollAllUnfold(live, stages, from, st, budget);
    var rest := PollAll(live, stages, from + 1, first.1, budget).value;
    if i > 0 {
      assert PollAll(live, stages, from, st, budget).value.confirmations[i] == rest.confirmations[i - 1];
      RunConfirmationsAreSound(live, stages, from + 1, first.1, budget, i - 1);
    } else {
      assert first.1.complete;
      var c: nat :| c < first.1.calls && DescribeOrZero(live(c)).status == "SUCCESS";
      assert c < rest.state.calls;
    }
  }

  // ---------------------------------------------------------------------------
  // stagesCmd.Run

  /** The status line printed for the first description. */
  datatype Banner = BuildSucceeded | BuildFailed | BuildAborted | BuildInProgress | NoBanner

  function StatusBanner(status: string): (b: Banner)
    ensures b == BuildSucceeded <==> status == "SUCCESS"
    ensures b == BuildFailed <==> status == "FAILURE"
    ensures b == BuildAborted <==> status == "ABORTED"
    ensures b == BuildInProgress <==> status == "IN_PROGRESS"
  {
    if status == "SUCCESS" then BuildSucceeded
    else if status == "FAILURE" then BuildFailed
    else if status == "ABORTED" then BuildAborted
    else if status == "IN_PROGRESS" then BuildInProgress
    else NoBanner
  }

  datatype StagesOutcome =
    | Usage
    | DescribeFailed(error: Error)
    | Finished(banner: Banner)
    | Watched(banner: Banner, stages: seq<Stage>, progress: Option<Progress>)

  /** The stage list the walk uses: GetPipelineConfig's, or none when it failed. */
  function PipelineStages(runs: Result<seq<seq<Stage>>>): (r: seq<Stage>)
    ensures runs.Err? ==> r == []
    ensures runs.Ok? ==> r == Pipeline.AggregateStages(runs.value)
    ensures runs.Ok? ==> Pipeline.DistinctIds(r)
    ensures runs.Ok? ==> forall i :: 0 <= i < |Pipeline.Flatten(runs.value)| ==>
      Pipeline.Flatten(runs.value)[i].id in Pipeline.Ids(r)
  {
    if runs.Err? then []
    else
      Pipeline.AggregateStagesSpec(runs.value);
      Pipeline.AggregateStages(runs.value)
  }

  /** stagesCmd.Run: needs a job and a build number; a failed or aborted build ends
      after its status line; otherwise every stage of the job's pipeline is watched. */
  function StagesRun(
    args: seq<string>, initial: Result<WFDescribe>, runs: Result<seq<seq<Stage>>>,
    live: nat -> Result<WFDescribe>, budget: nat)
    : (r: StagesOutcome)
    ensures |args| < 2 <==> r == Usage
    ensures r.DescribeFailed? <==> |args| >= 2 && initial.Err?
    ensures r.Finished? <==> |args| >= 2 && initial.Ok? && initial.value.status in {"FAILURE", "ABORTED"}
    ensures r.Watched? ==> r.stages == PipelineStages(runs)
    ensures r.Watched? && r.progress.Some? ==> |r.progress.value.confirmations| == |r.stages|
    ensures r.Finished? ==> r.banner == StatusBanner(initial.value.status)
    ensures r.Watched? ==> r.banner == StatusBanner(initial.value.status)
    ensures r.Watched? ==> r.progress == PollAll(live, r.stages, 0, PollState(false, 0), budget)
  {
    if |args| < 2 then Usage
    else match initial
      case Err(e) => DescribeFailed(e)
      case Ok(d) =>
        var banner := StatusBanner(d.status);
        if banner == BuildFailed || banner == BuildAborted then Finished(banner)
        else
          var stages := PipelineStages(runs);
          Watched(banner, stages, PollAll(live, stages, 0, PollState(false, 0), budget))
  }

  /** When the live description reports the run succeeded at the first call, every stage
      is ticked off after exactly that one call. */
  lemma SucceededRunNeedsOneCall(live: nat -> Result<WFDescribe>, stages: seq<Stage>, budget: nat)
    requires |stages| > 0 && budget > 0
    requires DescribeOrZero(live(0)).status == "SUCCESS"
    ensures PollAll(live, stages, 0, PollState(false, 0), budget).Some?
    ensures PollAll(live, stages, 0, PollState(false, 0), budget).value.state == PollState(true, 1)
  {
    CompleteIsSticky(live, stages, 1, PollState(true, 1), budget);
  }
}
